=== FILE: README.md ===
# successcrm storage layer and helpers, in Dafny

This project models the Redis storage layer of successcrm, a small CRM. The
layer stores users, categories, contacts and tasks. The model also covers the
pure helpers the web application builds on it.

The Redis database is an immutable value, `Kv.Store`. It holds counters,
strings, hashes, lists, sets and sorted sets. A `MULTI`/`EXEC` batch is a
sequence of `Kv.Op` applied in order by `Kv.Exec`. A sorted set is a
sequence of entries, ordered by score and then by member, with each member
appearing once. Every store operation of the source becomes a pure function
from a store to a new store plus the callback's result.

- **Tasks** (`redis/tasks.js`, `redis/util.js`):
  - every task is written to a global index, a per-assignee index, a
    per-category index, a per-assignee-per-category index and a per-contact
    index, each scored by its due instant;
  - `lookupKey` chooses one index for a filter;
  - `get` and `getByDateRange` read that index whole or within an inclusive
    score window;
  - `toRedis` and `fromRedis` flatten a task and rebuild it.
- **Contacts** (`redis/contacts.js`): people and organisations kept in
  type-keyed id lists and an organisation-to-people set, their arrays stored
  as JSON text, and the name, address, email and phone accessors.
- **Categories** (`redis/categories.js`): a case-insensitive name index, and
  the id list kept sorted by category name.
- **Users** (`redis/users.js`): a case-insensitive username index, password
  generation, and credential checking.
- **Helpers** (`helpers.js`): newline normalisation and the three
  line-break filters.
- **App** (`app.js`):
  - the dashboard's overdue/upcoming split;
  - `nonEmpty`, `taskContext` and `replaceTaskRelIds`;
  - the 404/403 checks of the task routes.

The central property is the task index invariant `Tasks.Indexed`, made of
four parts:

- every sorted-set entry names a stored task, carries its due instant, and
  sits under one of that task's index keys;
- every stored task is in every index its keys name;
- no task is stored under an id beyond the counter;
- every sorted set is well ordered.

The empty store satisfies it and `store` preserves it. Under it, every query
succeeds, returns tasks in due order within the window, and returns each
matching task exactly once.

The model follows the code of `redis/*.js`, `helpers.js` and `app.js`, with
two exceptions:

- `store` hands its callback the record `toRedis` built: a numeric due and a
  boolean `true`/`false` time flag. The model returns the record as the hash
  holds it after HMSET, so the flag is the text `'true'`/`'false'` (see
  "Left out").
- The contact index key is built from the normalised contact id. The code
  as written uses the raw field, which differs only when the field holds an
  object: the key then takes the object's `String()` text (see "Findings"). `Tasks.StoreAsWritten` models the code as
  written.

## Model

| member | source | states |
|---|---|---|
| Js.Timestamp | redis/util.js:4-8 | a falsy value passes through unchanged; a Date becomes its instant as a number; a plain object is its own value; other values pass through; the result is never a Date |
| Js.TimestampIdempotent | redis/util.js:4-8 | flattening an already flattened value changes nothing, so a stored due instant is never re-converted |
| Js.Rel | redis/util.js:13-17 | a falsy value passes through unchanged; an object is replaced by its `id`; a Date has no `id` and gives undefined; other non-objects pass through |
| Js.RelIdempotent | redis/util.js:13-17 | normalising a relation that is already an id changes nothing |
| Text.NatText | redis/tasks.js:74-77 | the decimal text of a counter value, used to build `task:#<id>` style keys |
| Text.NatTextInjective | redis/tasks.js:74-77 | two different counter values never give the same key text, so new ids never hit old records |
| Kv.Incr | redis/tasks.js:74 | INCR returns the old counter plus one and stores it; no other counter or structure changes |
| Kv.ZAdd | redis/tasks.js:66 | ZADD leaves exactly the old entries of other members plus the new (member, score) entry; a well-ordered set stays well ordered |
| Kv.ZRangeByScore | redis/tasks.js:112 | ZRANGEBYSCORE keeps exactly the entries whose score lies in the inclusive range, in set order |
| Kv.RangeByRank | redis/contacts.js:124-125 | LRANGE/ZRANGE with start 0 and stop -1 give the whole list; an in-range start gives the slice through stop, clipped to the length; an empty window gives nothing |
| Kv.SortBy | redis/categories.js:43 | SORT BY ... ALPHA returns a permutation of the list that is sorted by the weight each element names |
| Kv.ExecAppend | redis/tasks.js:78-81 | running two batches one after the other is the same as running their concatenation |
| Kv.ZValidAscending | redis/tasks.js:105 | in a sorted set, members are distinct and scores never decrease from one entry to the next |
| Tasks.SetHours | redis/tasks.js:201 | replaces the hour of the due instant and keeps the day, the minutes and everything below a minute (UTC) |
| Tasks.SetMinutes | redis/tasks.js:202 | replaces the minutes of the due instant and keeps the day, the hour and everything below a minute (UTC) |
| Tasks.MergedDue | redis/tasks.js:198-203 | without a time the due instant is kept; with one, the result has the time's hour and minute on the due's day, with the due's seconds |
| Tasks.ToRedis | redis/tasks.js:195-210 | the time becomes the flag `'true'` exactly when a time was given; the relations are kept; the due instant is the merged one; the new task is not completed |
| Tasks.FromRedis | redis/tasks.js:215-223 | the time comes back exactly when the flag reads `'true'`, and then equals the due instant |
| Tasks.CodecRoundTrip | redis/tasks.js:195-223 | flattening and rebuilding keeps the text and relation fields and whether a time was set; it puts the time's hour and minute on the original day; without a time the due instant is unchanged |
| Tasks.SortedSetKeys | redis/tasks.js:31-49 | a task is always in the global and assignee indexes; it is in the category and assignee-category indexes iff its category is truthy, and in the contact index iff its contact is truthy; the key count follows |
| Tasks.SortedSetKeysDistinct | redis/tasks.js:31-49 | the index keys of one task are pairwise different, so each ZADD of the batch touches its own set |
| Tasks.KeysDiffer | redis/tasks.js:18-26 | the five kinds of index key never coincide, whatever ids they are built from |
| Tasks.SortedSetKeysAsWritten | redis/tasks.js:31-49 | as written: the global and assignee keys are always present, the two category keys iff the category is truthy, and the contact key is built from the raw contact field iff the normalised contact is truthy; the key count follows |
| Tasks.SortedSetKeysAgree | redis/tasks.js:45-47 | when the contact is not an object, the keys as written equal the corrected keys |
| Tasks.SortedSetKeysAsWrittenObjectContact | redis/tasks.js:45-47 | a task whose contact is an object for contact 3 is indexed under `tasks:contact:#` plus the object's `String()` text, so under `tasks:contact:#3` exactly when that text is `3`; the corrected keys always include `tasks:contact:#3` |
| Tasks.AddToSortedSets | redis/tasks.js:63-68 | one ZADD per index key, in key order, each with the task's score and id |
| Tasks.ExecAddToSortedSets | redis/tasks.js:63-68 | running the ZADDs changes only sorted sets; each named set gains the task's entry, replacing any old one for that id, and the rest are unchanged |
| Tasks.ExecStoreOps | redis/tasks.js:78-81 | the store batch writes the task hash, adds the task scored by its due instant to exactly the given index sets, and changes nothing else |
| Tasks.Store | redis/tasks.js:73-86 | the id is the counter plus one; the record is the flattened task; only its hash and its index sets change; lists, strings and sets stay as they were |
| Tasks.StoreAsWritten | redis/tasks.js:73-86 | as written: the same id, record and hash as `store`, with the task added to the sets of the keys as written |
| Tasks.StoreAsWrittenAgrees | redis/tasks.js:45-47 | for a contact that is not an object, the store as written leaves the same database and returns the same record as the modelled store |
| Tasks.StoreAsWrittenMissesObjectContact | redis/tasks.js:45-47 | as written, a task whose contact is an object for contact 3 whose `String()` text is not `3` is not returned by a query for contact 3 on a store with no tasks for that contact |
| Tasks.ObjectContactsMissed | redis/tasks.js:45-47 | that case covers a plain `{id: 3}` object (text `[object Object]`) and contact 3 as `asContact` returns it (text its name) |
| Tasks.StoreFindsObjectContact | redis/tasks.js:45-47 | with the corrected key, the same task is always listed under contact 3, whatever the object's text |
| Tasks.StoreListsUnderKeys | redis/tasks.js:73-86 | after a store, reading any of the new task's index sets lists its id |
| Tasks.TaskAtAfterStore | redis/tasks.js:73-86 | after a store, the new id reads back the new record and every other id reads back what it did before |
| Tasks.EmptyIndexed | redis/tasks.js:73-86 | the empty database satisfies the index invariant |
| Tasks.StoredIdUnused | redis/tasks.js:74-77 | under the invariant, the id a store allocates names no stored task and no index entry |
| Tasks.StorePreservesSound | redis/tasks.js:73-86 | after a store, every index entry still names a stored task with that due instant, under one of its keys |
| Tasks.StorePreservesComplete | redis/tasks.js:73-86 | after a store, every stored task is still in every index its keys name |
| Tasks.StorePreservesFresh | redis/tasks.js:73-86 | after a store, no task is stored beyond the counter |
| Tasks.StorePreservesIndexed | redis/tasks.js:73-86 | store preserves the whole index invariant |
| Tasks.IndexedFrame | redis/tasks.js:73-86 | a write that leaves the task records, the sorted sets and the task counter alone keeps the index invariant |
| Tasks.CategoryStoreKeepsIndexed | redis/categories.js:34-49 | storing a category keeps the task index invariant |
| Tasks.UserStoreKeepsIndexed | redis/users.js:36-54 | storing a user keeps the task index invariant |
| Tasks.PersonStoreKeepsIndexed | redis/contacts.js:39-56 | storing a person keeps the task index invariant |
| Tasks.OrganisationStoreKeepsIndexed | redis/contacts.js:58-72 | storing an organisation keeps the task index invariant |
| Tasks.LookupKey | redis/tasks.js:122-128 | a truthy contact selects the contact index; otherwise a category selects the assignee-category or category index; otherwise an assignee selects the assignee index; otherwise the global index |
| Tasks.LookupKeyPrecedence | redis/tasks.js:122-128 | the contact filter overrides category and assignee, and the category filter is only read when there is no contact |
| Tasks.LookupKeyFindsTask | redis/tasks.js:122-128 | the index a filter selects is one of the indexes every task matching that filter was added to |
| Tasks.IndexEntries | redis/tasks.js:104-113 | a read takes exactly the entries of the chosen set that lie in the window, in set order |
| Tasks.FetchRelated | redis/tasks.js:225-242 | the assignee is always looked up; category, contact and completer are looked up exactly when truthy and are otherwise left as they were |
| Tasks.ById | redis/tasks.js:93-99 | a missing record gives null; otherwise the decoded record with its relations resolved by fetchRelated |
| Tasks.FetchTasks | redis/tasks.js:150-164 | the batch read succeeds exactly when every id has a record, and then gives each record decoded and resolved, in id order |
| Tasks.IndexEntriesRecorded | redis/tasks.js:140-167 | under the invariant, each entry a read returns names a stored task whose due instant is the entry's score |
| Tasks.GetTasksOrdered | redis/tasks.js:140-167 | under the invariant, a read never fails, every task it returns lies in the window, and the tasks come in ascending due order |
| Tasks.GetTasksExactly | redis/tasks.js:140-167 | under the invariant, a read returns an id exactly when it names a stored task filed under the chosen index and due in the window |
| Tasks.GetTasksComplete | redis/tasks.js:140-167 | under the invariant, a stored task that matches the filter and lies in the window is returned exactly once |
| Tasks.StoreThenById | redis/tasks.js:93-99 | a stored task reads back by its new id as the rebuilt form of what was stored |
| Tasks.StoreThenGet | redis/tasks.js:104-113 | after a store, a query whose filter and window match the new task returns it exactly once |
| Contacts.PrepareForStorage | redis/contacts.js:209-217 | the id and type are set; missing arrays are stored as the JSON text of an empty array; the names, organisation, title, job title and background are kept |
| Contacts.AsContact | redis/contacts.js:187-207 | a record becomes a person exactly when its type is `'person'`, otherwise an organisation with no people yet; the id, type and organisation id are kept |
| Contacts.ArraysRoundTrip | redis/contacts.js:187-217 | storing and reading back gives the phone numbers, email addresses and addresses given, or empty ones when none were given |
| Contacts.PersonName | redis/contacts.js:170-172 | first and last names joined by one space, or whichever one is present |
| Contacts.ShortAddress | redis/contacts.js:150-154 | empty without addresses; otherwise the non-empty parts of the first address, in street, city, county, post-code order, joined by `, `, and so empty exactly when all four are empty |
| Contacts.ShortAddressAllParts | redis/contacts.js:150-154 | with all four parts present, they are joined with commas in street, city, county, post-code order |
| Contacts.ContactText | redis/contacts.js:170-184 | a person renders as its full name and an organisation as its name |
| Contacts.ContactValue | redis/contacts.js:170-197 | a contact on a task field is an object whose `rel()` is its id text and whose `String()` is its name |
| Contacts.PrimaryEmail | redis/contacts.js:156-159 | the first email address, and none exactly when there are none |
| Contacts.PrimaryPhone | redis/contacts.js:161-164 | the first phone number, and none exactly when there are none |
| Contacts.StorePerson | redis/contacts.js:39-56 | a new id from the counter; the record under it, and no other hash changes; the id appended to the contacts and people lists and added to the organisation's people set when there is one; no other counter, string or sorted set changes |
| Contacts.ExecPersonOps | redis/contacts.js:44-50 | the person batch is the hash write, the optional set add, and the two list appends, in that order |
| Contacts.StoreOrganisation | redis/contacts.js:58-72 | a new id from the counter; the record under it, and no other hash changes; the id appended to the contacts and organisations lists; no set, other list, counter, string or sorted set changes |
| Contacts.LookupKey | redis/contacts.js:106-110 | `'person'` selects the people list, `'organisation'` the organisations list, anything else the contacts list, each iff |
| Contacts.Summary | redis/contacts.js:266-273 | a missing person gives an empty summary; otherwise its id, its full name and its job title |
| Contacts.FetchPartialRelated | redis/contacts.js:255-287 | an error exactly for an unknown contact type; an organisation keeps its earlier people and gains, in set order, the summary of each member of its people set; a person without an organisation is unchanged, and otherwise gets its organisation's id and name, or nulls when that record is missing; the id and type are kept |
| Contacts.StorePersonListedByOrganisation | redis/contacts.js:263-273 | once a person naming an organisation is stored, that organisation's related data lists the person's id and full name |
| Contacts.ById | redis/contacts.js:78-100 | a missing record gives null; without related data the stored record is returned as a contact; with partial related data the contact gains it, and fails exactly when fetching it does |
| Contacts.PageIds | redis/contacts.js:122-125 | with count at least one, at most count ids, namely the list from start on, clipped to its end |
| Contacts.ZeroCountReadsWholeList | redis/contacts.js:124 | a count of zero gives stop -1, which reads the whole list |
| Contacts.FetchAll | redis/contacts.js:127-136 | one result per id, each the result of byId on that id; without related data it never fails |
| Contacts.Get | redis/contacts.js:112-137 | one result per id of the page, each what byId gives for that id; with count at least one, at most count contacts; without related data it never fails |
| Contacts.StorePersonThenRead | redis/contacts.js:39-56 | a stored person reads back by id, and its id is last in the people list and in the contacts list |
| Contacts.StorePersonPrimaryEmail | redis/contacts.js:156-159 | a stored person's primary email is the first email address given, if any |
| Categories.ByName | redis/categories.js:23-29 | the lookup goes through the name index keyed by `toLowerCase()` of the name; no (or an empty) index entry means no category, and a non-empty one gives byId of that id |
| Categories.ExecStoreOps | redis/categories.js:38-43 | the batch sets the name index, appends the id, writes the hash, then re-sorts the id list by name |
| Categories.Store | redis/categories.js:34-49 | a new id from the counter; the name index points to it and no other string changes; its hash is written and no other hash changes; the id list gains the id and is sorted by name; no other list, set, sorted set or counter changes |
| Categories.Get | redis/categories.js:51-61 | one entry per listed id, each what byId gives for that id |
| Categories.Pairs | redis/categories.js:66-71 | `[id, name]` pairs in list order, and an error exactly when some listed category is missing |
| Categories.Choices | redis/categories.js:66-71 | the choices are the `[id, name]` pairs of the categories in list order, and fail exactly when one is missing |
| Categories.StoreThenByName | redis/categories.js:23-49 | a stored category is found by any spelling of its name that `toLowerCase()` maps to the same text |
| Categories.StoreThenGet | redis/categories.js:34-61 | a stored category is among those listed, and the listing is in name order |
| Users.ByUsername | redis/users.js:24-30 | the lookup goes through the username index keyed by `toLowerCase()` of the username; no (or an empty) index entry means no user, and a non-empty one gives byId of that id |
| Users.GeneratePassword | redis/users.js:72-91 | the password is the hash of two random values; the stored hash is the hash of that password with a fresh salt |
| Users.Store | redis/users.js:36-54 | a new id from the counter; the record keeps the given username, first and last name, email and admin flag, with the salt and the salted hash of the generated password; the username index points to it and no other string changes; its hash is written and no other hash changes; the id is appended to the users list; no other list, set, sorted set or counter changes |
| Users.ValidateCredentials | redis/users.js:97-109 | a user is returned exactly when the username is known and the salted hash of the password matches the stored one |
| Users.StoreThenValidate | redis/users.js:36-109 | a new user can log in with the generated password, under any spelling of the username that `toLowerCase()` maps to the same text |
| Users.OtherPasswordRefused | redis/users.js:97-109 | when the hash is injective in the password, any other password is refused |
| Helpers.NormaliseNewlines | helpers.js:6-12 | the result has no carriage return, is never longer, and leaves text without one unchanged |
| Helpers.NormaliseIdempotent | helpers.js:6-12 | normalising twice is normalising once |
| Helpers.SplitMixed | helpers.js:6-12 | the lines between any of the three newline forms contain no line-break character |
| Helpers.SplitMixedNormalised | helpers.js:6-12 | splitting on mixed newlines equals normalising and then splitting on line feeds |
| Helpers.SplitParasWeave | helpers.js:25-30 | putting the runs of two or more newlines back between the paragraphs gives the original text |
| Helpers.SplitParasPieces | helpers.js:25-30 | no paragraph contains a double newline, and no inner boundary leaves a newline next to a removed run |
| Helpers.Linebreaks | helpers.js:25-30 | the result's lines are exactly the rendered paragraphs, one per paragraph of the escaped and normalised text |
| Helpers.Linebreaksslash | helpers.js:35-38 | the result never holds two newlines in a row, and text without a paragraph break comes out escaped and unchanged |
| Helpers.Linebreaksbr | helpers.js:43-45 | the result holds no line-break character |
| Helpers.LinebreaksbrReplaces | helpers.js:43-45 | the result is the escaped, normalised text with every newline replaced by `<br>` |
| Helpers.ReplaceIsSplitJoin | helpers.js:43-45 | replacing newlines is the same as splitting on them and joining with `<br>` |
| App.FirstUpcoming | app.js:148-156 | the position of the first task due after now: every earlier task is due by now |
| App.SplitDashboard | app.js:143-161 | overdue then upcoming is the whole list; overdue runs up to the first task due after now; on tasks in due order every upcoming task is due after now |
| App.FirstUpcomingAt | app.js:148-156 | any position whose earlier tasks are all due by now and whose task is due after now is the split point |
| App.DashboardSplitClean | app.js:143-161 | for the dashboard's own query, under the index invariant, the read succeeds and every task after the split is due after now |
| App.NonEmpty | app.js:166-178 | exactly the non-empty form entries are kept, in order |
| App.NonEmptyAppend | app.js:166-178 | filtering two lists joined is joining the filtered lists |
| App.NonEmptyKeepsFull | app.js:166-178 | a list without empty entries is kept whole |
| App.TaskContext | app.js:381-390 | a truthy contact is the context's contact and leads back to that contact's page; otherwise the contact is null and the page is the given next page, or `/tasks` |
| App.TaskContextContactWins | app.js:381-390 | a contact overrides any next page given |
| App.ReplaceTaskRelIds | app.js:454-458 | fails exactly when the assignee was not found, as reading `id` of null does |
| App.ReplaceTaskRelIdsIsRel | app.js:454-458 | on a task as byId returns it, each replaced field is the normalised id of its relation |
| App.FetchRelatedRawFalsy | redis/tasks.js:225-242 | a relation left unresolved by fetchRelated is always falsy |
| App.Guard | app.js:486-552 | 404 exactly when there is no task; edit and complete go ahead exactly when the task is open, reopen exactly when it is completed, delete always; a refusal is a 403 carrying that route's message |
| App.CompleteReopenExclusive | app.js:526-541 | for an existing task, exactly one of complete and reopen proceeds |
| App.StoredTaskGuards | app.js:484-541 | a freshly stored task can be edited and completed but not reopened |

## Left out

- The Redis connection, its error callbacks, and the callbacks' `err`
  arguments for Redis failures. Every command succeeds, and only errors the
  code raises itself are modelled.
- Concurrency between requests. Every operation runs alone, from one store
  value to the next.
- The local time zone. `setHours`/`setMinutes` are modelled in UTC, so the
  day is the instant divided by the length of a day.
- `isOverdue`, `$date` and `$timeAgo`. They read the clock or format through
  moment; in the dashboard the clock is the `now` parameter.
- The update, complete, reopen and delete storage functions the routes
  call. `redis/tasks.js` does not define them, and they are not part of this
  model. Only the route guards in front of them are modelled.
- `saveBackgroundInfo` and `fetchFullRelated` in `redis/contacts.js`. They
  are the full-detail paths, beyond the indexes modelled here.
- HMSET's conversion of every field to a string. Hashes keep typed records,
  so the `'true'`/`'false'` flag is the one stringification modelled. One
  consequence is not shown: a user stored with `isAdmin: false` reads back
  from redis/users.js:17-21 with the text `'false'`, which is truthy, so the
  `!req.user.isAdmin` test at app.js:595 would let that user through. Here
  `UserRecord.isAdmin` stays a boolean.
- Tasks.ToRedis: gives the time flag as the text `'true'`/`'false'`, the form
  HMSET stores. The code's own `toRedis` result, which `store` hands its
  callback, holds the boolean `true`/`false`.
- Tasks.ToRedis: the clone at redis/tasks.js:196 is shallow, so the
  `setHours`/`setMinutes` calls at redis/tasks.js:201-202 also change the
  caller's own due Date, against the comment at redis/tasks.js:192-193. The
  model is pure and does not show that aliasing.
- Tasks.Store: builds the contact index key from the normalised contact id,
  not from the raw field as redis/tasks.js:46 does. For every contact that
  is not an object the two agree (`Tasks.StoreAsWrittenAgrees`); for an
  object, `Tasks.StoreAsWritten` models the code.
- Tasks.ExecStoreOps: is stated for any key list. `Tasks.Store` applies it to
  the corrected keys and `Tasks.StoreAsWritten` to the keys as written.
- Tasks.StoreThenGet: holds for the corrected contact key. For the code as
  written it holds whenever the contact is not an object, by
  `Tasks.StoreAsWrittenAgrees`.
- Categories.ByName: takes `toLowerCase()` as the parameter `lower`. Its full Unicode
  case mapping is not modelled, and the contract holds for any mapping.
- Categories.Store: takes `toLowerCase()` as the parameter `lower`. Its full Unicode
  case mapping is not modelled, and the contract holds for any mapping.
- Categories.StoreThenByName: takes `toLowerCase()` as the parameter `lower`. Its full Unicode
  case mapping is not modelled, and the contract holds for any mapping.
- Users.ByUsername: takes `toLowerCase()` as the parameter `lower`. Its full Unicode
  case mapping is not modelled, and the contract holds for any mapping.
- Users.Store: takes `toLowerCase()` as the parameter `lower`. Its full Unicode
  case mapping is not modelled, and the contract holds for any mapping.
- Users.ValidateCredentials: takes `toLowerCase()` as the parameter `lower`. Its full Unicode
  case mapping is not modelled, and the contract holds for any mapping.
- Users.StoreThenValidate: takes `toLowerCase()` as the parameter `lower`. Its full Unicode
  case mapping is not modelled, and the contract holds for any mapping.
- The order of SMEMBERS. Redis leaves it unspecified; here a set returns
  its members in insertion order.
- JSON encoding. `Stringify`/`Parse` are an abstract codec that round-trips.
- HTML escaping. The escape function is a parameter; the `String(text)`
  conversion is assumed done.
- Randomness and PBKDF2. Both are parameters: random values are given, and
  the hash is an uninterpreted function.
- WRONGTYPE errors from reusing a key for another Redis type. Each type lives
  in its own map.
- Keys built from a Date's `toString()` text. A Date converts to its instant
  instead.
- `calendar.js`, `forms.js`, the Express routes' rendering and redirects,
  and the route configuration.
- Contacts.PageIds: its bound holds only for a count of at least one. A
  count of zero makes the stop -1 and reads the whole list, as
  `Contacts.ZeroCountReadsWholeList` states.
- Helpers.Linebreaksslash: states that no run of newlines survives and that
  text without a run comes out only escaped. It does not separately state
  that the single newlines inside a paragraph are kept.

## Findings

| source | as written | input that shows it | evidently intended | confidence | as-written member | corrected member |
|---|---|---|---|---|---|---|
| redis/tasks.js:46 | the contact index key is `CONTACT_TASKS + task.contact`, the raw value, while the category and user keys use the `rel()`-normalised id | a task whose contact is the plain object `{id: 3}` is indexed under `tasks:contact:#[object Object]`, and one whose contact is contact 3 from `asContact` under `tasks:contact:#<its name>`, so a query for contact 3 returns neither | build the key from `contact`, the normalised id, as line 45 already tests | low, not executed: the routes pass plain ids, so the path needs a caller that passes an object | Tasks.StoreAsWrittenMissesObjectContact | Tasks.StoreFindsObjectContact |

=== FILE: app.dfy ===
/**
 * The task helpers of app.js: the dashboard's overdue/upcoming split,
 * `nonEmpty` for form sets, `taskContext`, `replaceTaskRelIds` and the
 * 404/403 checks of the task routes.
 */
module App {
  import opened Results
  import opened Js
  import Text
  import Kv
  import opened Records
  import Tasks
  import Contacts

  // ------------------------------------------------------------ Dashboard

  /** The position of the first task due after `now`, or the length when
      there is none. */
  function FirstUpcoming(tasks: seq<Tasks.ResolvedTask>, now: int): (k: nat)
    ensures k <= |tasks|
    ensures forall i :: 0 <= i < k ==> tasks[i].task.due <= now
    ensures k < |tasks| ==> tasks[k].task.due > now
    decreases |tasks|
  {
    if |tasks| == 0 then 0
    else if tasks[0].task.due > now then 0
    else
      var k := FirstUpcoming(tasks[1..], now);
      assert forall i :: 1 <= i < |tasks| ==> tasks[i] == tasks[1..][i - 1];
      1 + k
  }

  predicate AscendingDue(tasks: seq<Tasks.ResolvedTask>) {
    forall i, j :: 0 <= i < j < |tasks| ==> tasks[i].task.due <= tasks[j].task.due
  }

  /** The dashboard route's loop: overdue is every task before the first one
      due after `now`, upcoming that task and the rest. On tasks in due order
      every upcoming task is due after `now`. */
  method SplitDashboard(tasks: seq<Tasks.ResolvedTask>, now: int)
    returns (overdue: seq<Tasks.ResolvedTask>, upcoming: seq<Tasks.ResolvedTask>)
    ensures overdue + upcoming == tasks
    ensures |overdue| == FirstUpcoming(tasks, now)
    ensures forall i :: 0 <= i < |overdue| ==> overdue[i].task.due <= now
    ensures |upcoming| > 0 ==> upcoming[0].task.due > now
    ensures AscendingDue(tasks) ==> forall i :: 0 <= i < |upcoming| ==> upcoming[i].task.due > now
  {
    overdue, upcoming := tasks, [];
    var i := 0;
    while i < |tasks|
      invariant 0 <= i <= |tasks|
      invariant forall j :: 0 <= j < i ==> tasks[j].task.due <= now
      invariant overdue == tasks && upcoming == []
    {
      if tasks[i].task.due > now {
        overdue, upcoming := tasks[..i], tasks[i..];
        assert overdue + upcoming == tasks;
        FirstUpcomingAt(tasks, now, i);
        return;
      }
      i := i + 1;
    }
    FirstUpcomingAt(tasks, now, |tasks|);
  }

  /** FirstUpcoming is the first position due after `now`. */
  lemma {:induction false} FirstUpcomingAt(tasks: seq<Tasks.ResolvedTask>, now: int, k: nat)
    requires k <= |tasks|
    requires forall j :: 0 <= j < k ==> tasks[j].task.due <= now
    requires k < |tasks| ==> tasks[k].task.due > now
    ensures FirstUpcoming(tasks, now) == k
    decreases k
  {
    if k > 0 {
      assert tasks[0].task.due <= now;
      FirstUpcomingAt(tasks[1..], now, k - 1);
    }
  }

  /** The dashboard reads the user's tasks by date range; on a consistent
      store those come in due order, so the split is clean. */
  lemma DashboardSplitClean(s: Kv.Store, nextWeek: int, user: JsValue, now: int)
    requires Tasks.Indexed(s)
    ensures var r := Tasks.GetByDateRange(s, 0, nextWeek, Tasks.Filter(user, Null, Null));
      && r.Ok?
      && forall i :: FirstUpcoming(r.value, now) <= i < |r.value| ==> r.value[i].task.due > now
  {
    var f := Tasks.Filter(user, Null, Null);
    Tasks.GetTasksOrdered(s, Tasks.Between(0, nextWeek), f);
    var tasks := Tasks.GetTasks(s, Tasks.Between(0, nextWeek), f).value;
    assert AscendingDue(tasks);
    UpcomingAfterFirst(tasks, now);
  }

  /** In due order, every task from the first upcoming one on is upcoming. */
  lemma UpcomingAfterFirst(tasks: seq<Tasks.ResolvedTask>, now: int)
    requires AscendingDue(tasks)
    ensures forall i :: FirstUpcoming(tasks, now) <= i < |tasks| ==> tasks[i].task.due > now
  {
    var k := FirstUpcoming(tasks, now);
    forall i | k <= i < |tasks|
      ensures tasks[i].task.due > now
    {
      assert tasks[k].task.due <= tasks[i].task.due;
    }
  }

  // ------------------------------------------------------------- nonEmpty

  /** A form's cleaned data, as an object's own properties. */
  type FormData = map<string, JsValue>

  /** nonEmpty: the items that have at least one own property, in order. */
  function NonEmpty(items: seq<FormData>): (r: seq<FormData>)
    ensures forall i :: 0 <= i < |r| ==> |r[i]| > 0
    ensures forall x :: x in r <==> x in items && |x| > 0
    ensures |r| <= |items|
    decreases |items|
  {
    if |items| == 0 then []
    else if |items[0]| > 0 then [items[0]] + NonEmpty(items[1..])
    else NonEmpty(items[1..])
  }

  /** nonEmpty keeps order: filtering a concatenation filters each part. */
  lemma {:induction false} NonEmptyAppend(a: seq<FormData>, b: seq<FormData>)
    ensures NonEmpty(a + b) == NonEmpty(a) + NonEmpty(b)
    decreases |a|
  {
    if |a| > 0 {
      assert (a + b)[1..] == a[1..] + b;
      NonEmptyAppend(a[1..], b);
    } else {
      assert a + b == b;
    }
  }

  /** Items that all have properties pass through unchanged. */
  lemma {:induction false} NonEmptyKeepsFull(items: seq<FormData>)
    requires forall i :: 0 <= i < |items| ==> |items[i]| > 0
    ensures NonEmpty(items) == items
    decreases |items|
  {
    if |items| > 0 {
      NonEmptyKeepsFull(items[1..]);
      assert items == [items[0]] + items[1..];
    }
  }

  // ---------------------------------------------------------- taskContext

  /** The cleaned data of a valid TaskContextForm. */
  datatype ContextData = ContextData(contact: JsValue, next: JsValue)

  datatype Context = Context(contact: JsValue, next: string)

  /** taskContext: the contact, or null; the page to return to is the
      contact's page when there is a contact, else the form's `next`, else
      the task list. An invalid form counts as empty data. */
  function TaskContext(form: Option<ContextData>): (r: Context)
    ensures Truthy(r.contact) || r.contact == Null
    ensures form.Some? && Truthy(form.value.contact) ==> r.contact == form.value.contact
    ensures (form.None? || !Truthy(form.value.contact)) ==> r.contact == Null
    ensures Truthy(r.contact) ==> r.next == "/contact/" + ToText(r.contact)
    ensures form.None? ==> r == Context(Null, "/tasks")
    ensures form.Some? && !Truthy(form.value.contact) ==>
      r.next == (if Truthy(form.value.next) then ToText(form.value.next) else "/tasks")
  {
    var data := match form
      case Some(d) => d
      case None => ContextData(Undefined, Undefined);
    var contact := if Truthy(data.contact) then data.contact else Null;
    var next := if Truthy(contact) then "/contact/" + ToText(contact)
                else if Truthy(data.next) then ToText(data.next)
                else "/tasks";
    Context(contact, next)
  }

  /** The form's contact, when given, wins over its `next`. */
  lemma TaskContextContactWins(c: JsValue, next: JsValue)
    requires Truthy(c)
    ensures TaskContext(Some(ContextData(c, next))) == TaskContext(Some(ContextData(c, Null)))
  {
  }

  // ----------------------------------------------------- replaceTaskRelIds

  /** The id of a hash as HGETALL returns it: text. */
  function IdValue(id: nat): JsValue {
    Str(Text.NatText(id))
  }

  /** A resolved relation as the JavaScript value on the task: the fetched
      object (carrying its id and its `String()` text), null when the lookup
      found nothing, or the raw falsy value that was never looked up. */
  function RelatedValue<T>(r: Tasks.Related<T>, idOf: T -> nat, textOf: T -> string): JsValue {
    match r
    case Raw(v) => v
    case Fetched(None) => Null
    case Fetched(Some(x)) => Record(IdValue(idOf(x)), textOf(x))
  }

  datatype RelIds = RelIds(category: JsValue, assignedTo: JsValue, contact: JsValue)

  /** replaceTaskRelIds: the resolved category and contact replaced by their
      ids when set, the assignee always; an assignee that resolved to null
      makes `task.assignedTo.id` throw. */
  function ReplaceTaskRelIds(t: Tasks.ResolvedTask): (r: Result<RelIds>)
    ensures r.Err? <==> t.assignedTo.None?
  {
    var category := match t.category
      case Raw(v) => v
      case Fetched(None) => Null
      case Fetched(Some(c)) => IdValue(c.id);
    var contact := match t.contact
      case Raw(v) => v
      case Fetched(None) => Null
      case Fetched(Some(c)) => IdValue(c.id);
    match t.assignedTo
    case None => Err("TypeError: Cannot read property 'id' of null")
    case Some(u) => Ok(RelIds(category, IdValue(u.id), contact))
  }

  function CategoryId(c: CategoryRecord): nat { c.id }
  function ContactId(c: Contacts.Contact): nat { c.id }

  /** A category is a plain HGETALL object, without its own `toString`. */
  function CategoryText(c: CategoryRecord): string { PLAIN_OBJECT_TEXT }

  /** A relation left unresolved holds the task's falsy field. */
  predicate RawFalsy<T>(r: Tasks.Related<T>) {
    r.Raw? ==> !Truthy(r.value)
  }

  /** Tasks resolved by fetchRelated keep only falsy raw relations. */
  lemma FetchRelatedRawFalsy(s: Kv.Store, t: Tasks.Task)
    ensures RawFalsy(Tasks.FetchRelated(s, t).category)
    ensures RawFalsy(Tasks.FetchRelated(s, t).contact)
    ensures RawFalsy(Tasks.FetchRelated(s, t).completedBy)
  {
  }

  /** Where it succeeds, replaceTaskRelIds agrees with util.rel applied to
      the resolved values: category and contact become their ids, or stay
      falsy. */
  lemma ReplaceTaskRelIdsIsRel(t: Tasks.ResolvedTask)
    requires t.assignedTo.Some?
    requires RawFalsy(t.category) && RawFalsy(t.contact)
    ensures var r := ReplaceTaskRelIds(t).value;
      && r.category == Rel(RelatedValue(t.category, CategoryId, CategoryText))
      && r.contact == Rel(RelatedValue(t.contact, ContactId, Contacts.ContactText))
      && r.assignedTo == Rel(Record(IdValue(t.assignedTo.value.id), PLAIN_OBJECT_TEXT))
  {
  }

  // ---------------------------------------------------------- Route checks

  /** What a task route does after looking the task up. */
  datatype Outcome = NotFound | Forbidden(reason: string) | Proceed

  predicate Completed(t: Tasks.ResolvedTask) {
    Tasks.IsCompleted(t.task)
  }

  /** The task routes that look the task up first. */
  datatype Route = Edit | Complete | Reopen | Delete

  /** The 403 message of each route; delete never refuses. */
  function Refusal(route: Route): string {
    match route
    case Edit => "Can't edit a completed Task."
    case Complete => "Task is already completed."
    case Reopen => "Task is not completed."
    case Delete => ""
  }

  /** The checks in front of POST /task/:id, /complete, /reopen and /delete:
      404 without a task; editing and completing need an open task,
      reopening a completed one, deleting any task. */
  function Guard(route: Route, t: Option<Tasks.ResolvedTask>): (r: Outcome)
    ensures r == NotFound <==> t.None?
    ensures r == Proceed <==> t.Some? && (route.Delete? || Completed(t.value) == route.Reopen?)
    ensures r.Forbidden? ==> r.reason == Refusal(route)
  {
    match t
    case None => NotFound
    case Some(task) =>
      if route.Delete? || Completed(task) == route.Reopen? then Proceed
      else Forbidden(Refusal(route))
  }

  /** For an existing task exactly one of complete and reopen goes ahead,
      and editing goes ahead exactly when completing does. */
  lemma CompleteReopenExclusive(t: Option<Tasks.ResolvedTask>)
    requires t.Some?
    ensures (Guard(Complete, t) == Proceed) != (Guard(Reopen, t) == Proceed)
    ensures Guard(Edit, t) == Proceed <==> Guard(Complete, t) == Proceed
  {
  }

  /** A task fresh from `store` can be edited and completed but not
      reopened. */
  lemma StoredTaskGuards(s: Kv.Store, input: Tasks.TaskInput)
    ensures var r := Tasks.Store(s, input);
      var found := Tasks.ById(r.0, Text.NatText(r.1.id));
      && Guard(Edit, found) == Proceed
      && Guard(Complete, found) == Proceed
      && Guard(Reopen, found) == Forbidden("Task is not completed.")
  {
    Tasks.StoreThenById(s, input);
  }
}

=== FILE: categories.dfy ===
/**
 * redis/categories.js: task categories, a case-insensitive name index and a
 * list of ids kept sorted by category name. `lower` is the string's
 * `toLowerCase()`, JavaScript's full Unicode case mapping, supplied by the
 * caller as escape and the password hash are elsewhere.
 */
module Categories {
  import opened Results
  import Text
  import Kv
  import opened Records

  const CATEGORY := "category:#"
  const CATEGORIES := "categories"
  const NAME_TO_ID := "categoryname.to.id:#"
  const NEXT_ID := "categories:nextid"

  /** byId: the hash under `category:#<id>`, or null when there is none. */
  function ById(s: Kv.Store, id: string): Option<CategoryRecord> {
    match Kv.HGetAll(s, CATEGORY + id)
    case Some(CategoryHash(c)) => Some(c)
    case _ => None
  }

  /** byName: looks the lower-cased name up in the name index; null when no
      id is indexed under it. */
  function ByName(s: Kv.Store, name: string, lower: string -> string): (r: Option<CategoryRecord>)
    ensures Kv.GetString(s, NAME_TO_ID + lower(name)).None? ==> r.None?
    ensures r.Some? ==> r == ById(s, Kv.GetString(s, NAME_TO_ID + lower(name)).value)
    ensures Kv.GetString(s, NAME_TO_ID + lower(name)).Some? && Kv.GetString(s, NAME_TO_ID + lower(name)).value != "" ==>
      r == ById(s, Kv.GetString(s, NAME_TO_ID + lower(name)).value)
  {
    match Kv.GetString(s, NAME_TO_ID + lower(name))
    case None => None
    case Some(id) => if id == "" then None else ById(s, id)
  }

  /** The weight SORT gives a category id: its category's name. */
  function NameOf(s: Kv.Store): string -> string {
    var hashes := s.hashes;
    e => Kv.NameWeight(hashes, CATEGORY, e)
  }

  /** The MULTI batch `store` queues for a new category. */
  function StoreOps(id: nat, name: string, lower: string -> string): seq<Kv.Op> {
    var idText := Text.NatText(id);
    [ Kv.Set(NAME_TO_ID + lower(name), idText),
      Kv.RPush(CATEGORIES, idText),
      Kv.HMSet(CATEGORY + idText, CategoryHash(CategoryRecord(id, name))),
      Kv.SortByNameAlpha(CATEGORIES, CATEGORY) ]
  }

  /** The store the batch of `store` leaves behind: name index set, id
      appended, record written, then the id list sorted by name. */
  function AfterStoreOps(s1: Kv.Store, id: nat, name: string, lower: string -> string): Kv.Store {
    var idText := Text.NatText(id);
    var s4 := s1.(strings := s1.strings[NAME_TO_ID + lower(name) := idText],
                  lists := s1.lists[CATEGORIES := Kv.ListAt(s1, CATEGORIES) + [idText]],
                  hashes := s1.hashes[CATEGORY + idText := CategoryHash(CategoryRecord(id, name))]);
    s4.(lists := s4.lists[CATEGORIES := Kv.SortBy(Kv.ListAt(s4, CATEGORIES), NameOf(s4))])
  }

  /** The batch writes one string, one hash and the id list, and nothing
      else. */
  lemma AfterStoreOpsFrame(s1: Kv.Store, id: nat, name: string, lower: string -> string)
    ensures var r := AfterStoreOps(s1, id, name, lower);
      && r.strings == s1.strings[NAME_TO_ID + lower(name) := Text.NatText(id)]
      && r.hashes == s1.hashes[CATEGORY + Text.NatText(id) := CategoryHash(CategoryRecord(id, name))]
      && r.counters == s1.counters && r.zsets == s1.zsets && r.sets == s1.sets
      && (forall k :: k != CATEGORIES ==> Kv.ListAt(r, k) == Kv.ListAt(s1, k))
  {
  }

  lemma ExecStoreOps(s1: Kv.Store, id: nat, name: string, lower: string -> string)
    ensures Kv.Exec(s1, StoreOps(id, name, lower)) == AfterStoreOps(s1, id, name, lower)
  {
    var ops := StoreOps(id, name, lower);
    var s2 := Kv.ApplyOp(s1, ops[0]);
    var s3 := Kv.ApplyOp(s2, ops[1]);
    var s4 := Kv.ApplyOp(s3, ops[2]);
    var s5 := Kv.ApplyOp(s4, ops[3]);
    var idText := Text.NatText(id);
    assert s4 == s1.(strings := s1.strings[NAME_TO_ID + lower(name) := idText],
                     lists := s1.lists[CATEGORIES := Kv.ListAt(s1, CATEGORIES) + [idText]],
                     hashes := s1.hashes[CATEGORY + idText := CategoryHash(CategoryRecord(id, name))]);
    assert s5 == AfterStoreOps(s1, id, name, lower);
    assert ops[1..][1..][1..][1..] == [];
    assert Kv.Exec(s4, ops[1..][1..][1..]) == s5;
    assert Kv.Exec(s3, ops[1..][1..]) == s5;
    assert Kv.Exec(s2, ops[1..]) == s5;
  }

  /** store: allocates the next id and, in one batch, indexes the lower-cased
      name, appends the id to the id list, writes the record and re-sorts the
      id list by name. Returns the new store and the id. */
  function Store(s: Kv.Store, name: string, lower: string -> string): (r: (Kv.Store, nat))
    ensures r.1 == Kv.Counter(s, NEXT_ID) + 1 && Kv.Counter(r.0, NEXT_ID) == r.1
    ensures Kv.GetString(r.0, NAME_TO_ID + lower(name)) == Some(Text.NatText(r.1))
    ensures Kv.HGetAll(r.0, CATEGORY + Text.NatText(r.1)) == Some(CategoryHash(CategoryRecord(r.1, name)))
    ensures multiset(Kv.ListAt(r.0, CATEGORIES)) == multiset(Kv.ListAt(s, CATEGORIES)) + multiset{Text.NatText(r.1)}
    ensures Kv.SortedBy(Kv.ListAt(r.0, CATEGORIES), NameOf(r.0))
    ensures r.0.zsets == s.zsets && r.0.sets == s.sets
    ensures forall k :: k != CATEGORIES ==> Kv.ListAt(r.0, k) == Kv.ListAt(s, k)
    ensures r.0.strings == s.strings[NAME_TO_ID + lower(name) := Text.NatText(r.1)]
    ensures r.0.hashes == s.hashes[CATEGORY + Text.NatText(r.1) := CategoryHash(CategoryRecord(r.1, name))]
    ensures forall k :: k != NEXT_ID ==> Kv.Counter(r.0, k) == Kv.Counter(s, k)
  {
    var (s1, id) := Kv.Incr(s, NEXT_ID);
    ExecStoreOps(s1, id, name, lower);
    var r := AfterStoreOps(s1, id, name, lower);
    AfterStoreOpsFrame(s1, id, name, lower);
    assert r.hashes == s1.hashes[CATEGORY + Text.NatText(id) := CategoryHash(CategoryRecord(id, name))];
    assert NameOf(r) == NameOf(r.(lists := s1.lists[CATEGORIES := Kv.ListAt(s1, CATEGORIES) + [Text.NatText(id)]]));
    assert Kv.ListAt(s1, CATEGORIES) == Kv.ListAt(s, CATEGORIES);
    (Kv.Exec(s1, StoreOps(id, name, lower)), id)
  }

  /** get: one entry per id of the id list, in list order; an id without a
      hash reads as null. */
  function Get(s: Kv.Store): (r: seq<Option<CategoryRecord>>)
    ensures |r| == |Kv.ListAt(s, CATEGORIES)|
    ensures forall i :: 0 <= i < |r| ==> r[i] == ById(s, Kv.ListAt(s, CATEGORIES)[i])
  {
    var ids := Kv.RangeByRank(Kv.ListAt(s, CATEGORIES), 0, -1);
    seq(|ids|, i requires 0 <= i < |ids| => ById(s, ids[i]))
  }

  /** The `[id, name]` pairs of `choices`; a null category makes
      `c.id` throw, reported as an error. */
  function Pairs(cs: seq<Option<CategoryRecord>>): (r: Result<seq<(string, string)>>)
    ensures r.Ok? <==> forall i :: 0 <= i < |cs| ==> cs[i].Some?
    ensures r.Ok? ==> (|r.value| == |cs| &&
      forall i :: 0 <= i < |cs| ==> r.value[i] == (Text.NatText(cs[i].value.id), cs[i].value.name))
    decreases |cs|
  {
    if |cs| == 0 then Ok([])
    else match cs[0]
      case None => Err("TypeError: Cannot read property 'id' of null")
      case Some(c) =>
        match Pairs(cs[1..])
        case Err(e) =>
          assert !cs[1..][0].Some? || exists i :: 0 <= i < |cs[1..]| && !cs[1..][i].Some?;
          Err(e)
        case Ok(rest) => Ok([(Text.NatText(c.id), c.name)] + rest)
  }

  /** choices: the categories of `get` as `[id, name]` pairs, same length and
      order. */
  function Choices(s: Kv.Store): (r: Result<seq<(string, string)>>)
    ensures r.Ok? <==> forall i :: 0 <= i < |Get(s)| ==> Get(s)[i].Some?
    ensures r.Ok? ==> (|r.value| == |Get(s)| &&
      forall i :: 0 <= i < |r.value| ==> r.value[i] == (Text.NatText(Get(s)[i].value.id), Get(s)[i].value.name))
  {
    Pairs(Get(s))
  }

  /** After `store`, the name index finds the new category under any spelling
      of its name that lower-cases alike. */
  lemma StoreThenByName(s: Kv.Store, name: string, query: string, lower: string -> string)
    requires lower(query) == lower(name)
    ensures ByName(Store(s, name, lower).0, query, lower) == Some(CategoryRecord(Store(s, name, lower).1, name))
  {
  }

  /** After `store`, `get` lists the new category, and every two categories it
      lists are in name order. */
  lemma StoreThenGet(s: Kv.Store, name: string, lower: string -> string)
    ensures Some(CategoryRecord(Store(s, name, lower).1, name)) in Get(Store(s, name, lower).0)
    ensures var cs := Get(Store(s, name, lower).0);
      forall i, j :: 0 <= i < j < |cs| && cs[i].Some? && cs[j].Some? ==>
        Text.Le(cs[i].value.name, cs[j].value.name)
  {
    var (s', id) := Store(s, name, lower);
    var ids := Kv.ListAt(s', CATEGORIES);
    assert Text.NatText(id) in multiset(ids);
    var k :| 0 <= k < |ids| && ids[k] == Text.NatText(id);
    assert Get(s')[k] == Some(CategoryRecord(id, name));
    Kv.SortedByPairwise(ids, NameOf(s'));
    var cs := Get(s');
    forall i, j | 0 <= i < j < |cs| && cs[i].Some? && cs[j].Some?
      ensures Text.Le(cs[i].value.name, cs[j].value.name)
    {
      assert NameOf(s')(ids[i]) == cs[i].value.name;
      assert NameOf(s')(ids[j]) == cs[j].value.name;
    }
  }
}

=== FILE: contacts.dfy ===
/**
 * redis/contacts.js: people and organisations, type-keyed id lists, the
 * organisation-to-people set, the JSON encoding of the contact arrays and
 * the display helpers of the contact prototypes.
 */
module Contacts {
  import opened Results
  import opened Js
  import Text
  import Kv
  import opened Records

  const TYPE_PERSON := "person"
  const TYPE_ORGANISATION := "organisation"

  const CONTACT := "contact:#"
  const CONTACTS := "contacts"
  const PEOPLE := "contacts:people"
  const ORGANISATIONS := "contacts:orgs"
  const ORG_TO_PEOPLE := "org.to.people:#"
  const NEXT_ID := "contacts:nextid"

  /** The fields a new person or organisation arrives with; an array the
      caller did not supply is `None`. */
  datatype ContactInput = ContactInput(
    title: string,
    firstName: string,
    lastName: string,
    jobTitle: string,
    name: string,
    backgroundInfo: string,
    organisation: JsValue,
    phoneNumbers: Option<seq<Phone>>,
    emailAddresses: Option<seq<Email>>,
    addresses: Option<seq<Address>>)

  /** A person's organisation: the stored id, or the `{id, name}` summary that
      fetching partial related data puts in its place. */
  datatype OrgLink = OrgId(raw: JsValue) | OrgSummary(orgId: Option<string>, orgName: Option<string>)

  /** The `{id, name, jobTitle}` entries fetching partial related data adds to
      an organisation's people. */
  datatype PersonSummary = PersonSummary(personId: Option<string>, personName: string, personJobTitle: Option<string>)

  /** Which prototype a contact was given. */
  datatype Kind = Person | Organisation(people: seq<PersonSummary>)

  /** A contact as `asContact` returns it: arrays decoded, prototype chosen. */
  datatype Contact = Contact(
    id: nat,
    contactType: string,
    title: string,
    firstName: string,
    lastName: string,
    jobTitle: string,
    name: string,
    backgroundInfo: string,
    organisation: OrgLink,
    phoneNumbers: seq<Phone>,
    emailAddresses: seq<Email>,
    addresses: seq<Address>,
    kind: Kind)

  function OrEmpty<T>(xs: Option<seq<T>>): seq<T> {
    match xs
    case Some(v) => v
    case None => []
  }

  /** prepareForStorage, on a copy carrying the new id and type: the three
      arrays JSON-encoded, a missing one as `[]`. */
  function PrepareForStorage(c: ContactInput, id: nat, contactType: string): (r: ContactRecord)
    ensures r.id == id && r.contactType == contactType && r.organisation == c.organisation
    ensures r.firstName == c.firstName && r.lastName == c.lastName && r.name == c.name
    ensures r.title == c.title && r.jobTitle == c.jobTitle && r.backgroundInfo == c.backgroundInfo
    ensures Parse(r.phoneNumbers) == OrEmpty(c.phoneNumbers)
    ensures Parse(r.emailAddresses) == OrEmpty(c.emailAddresses)
    ensures Parse(r.addresses) == OrEmpty(c.addresses)
  {
    ContactRecord(id, contactType, c.title, c.firstName, c.lastName, c.jobTitle, c.name,
                  c.backgroundInfo, c.organisation,
                  Stringify(OrEmpty(c.phoneNumbers)),
                  Stringify(OrEmpty(c.emailAddresses)),
                  Stringify(OrEmpty(c.addresses)))
  }

  /** asContact: decodes the arrays; type `person` gets the person prototype,
      every other type the organisation prototype with no people yet. */
  function AsContact(rec: ContactRecord): (r: Contact)
    ensures r.kind.Person? <==> rec.contactType == TYPE_PERSON
    ensures r.kind.Organisation? ==> r.kind.people == []
    ensures r.id == rec.id && r.contactType == rec.contactType && r.organisation == OrgId(rec.organisation)
  {
    Contact(rec.id, rec.contactType, rec.title, rec.firstName, rec.lastName, rec.jobTitle, rec.name,
            rec.backgroundInfo, OrgId(rec.organisation),
            Parse(rec.phoneNumbers), Parse(rec.emailAddresses), Parse(rec.addresses),
            if rec.contactType == TYPE_PERSON then Person else Organisation([]))
  }

  /** The arrays a contact is stored with are the arrays it is read back with
      (a missing array reads back empty). */
  lemma ArraysRoundTrip(c: ContactInput, id: nat, contactType: string)
    ensures var r := AsContact(PrepareForStorage(c, id, contactType));
      r.phoneNumbers == OrEmpty(c.phoneNumbers) &&
      r.emailAddresses == OrEmpty(c.emailAddresses) &&
      r.addresses == OrEmpty(c.addresses)
  {
  }

  // ------------------------------------------------------- Display helpers

  /** `[first, last].filter(truthy).join(' ')`: the name of a person, shared by
      `fullName` and the partial related data of an organisation. */
  function PersonName(first: string, last: string): (r: string)
    ensures first != "" && last != "" ==> r == first + " " + last
    ensures first == "" ==> r == last
    ensures last == "" ==> r == first
  {
    var parts := [first, last];
    assert parts[1..] == [last] && [last][1..] == [];
    var ne := Text.NonEmptyParts(parts);
    assert Text.NonEmptyParts([last]) == (if last == "" then [] else [last]);
    assert ne == (if first == "" then [] else [first]) + (if last == "" then [] else [last]);
    if first != "" && last != "" then
      assert ne[1..] == [last];
      assert Text.Join(ne, " ") == first + " " + last;
      Text.JoinNonEmpty(parts, " ")
    else
      Text.JoinNonEmpty(parts, " ")
  }

  /** fullName. */
  function FullName(c: Contact): string {
    PersonName(c.firstName, c.lastName)
  }

  /** `String()` of a contact: `personProto.toString` gives a person's full
      name and `organisationProto.toString` an organisation's name. */
  function ContactText(c: Contact): (r: string)
    ensures c.kind.Person? ==> r == PersonName(c.firstName, c.lastName)
    ensures c.kind.Organisation? ==> r == c.name
  {
    match c.kind
    case Person => FullName(c)
    case Organisation(_) => c.name
  }

  /** A contact as a JavaScript value on a task field: an object whose `id`
      is the id text HGETALL gives and whose `String()` is its name. */
  function ContactValue(c: Contact): (v: JsValue)
    ensures v.Record? && Rel(v) == Str(Text.NatText(c.id)) && ToText(v) == ContactText(c)
  {
    Record(Str(Text.NatText(c.id)), ContactText(c))
  }

  function AddressParts(a: Address): seq<string> {
    [a.address, a.city, a.county, a.postCode]
  }

  /** shortAddress: empty without addresses, otherwise the non-empty address,
      city, county and post code of the first address joined with `, `. */
  function ShortAddress(c: Contact): (r: string)
    ensures |c.addresses| == 0 ==> r == ""
    ensures |c.addresses| > 0 ==>
      (r == "" <==> forall i :: 0 <= i < 4 ==> AddressParts(c.addresses[0])[i] == "")
    ensures |c.addresses| > 0 ==>
      r == Text.Join(Text.NonEmptyParts(AddressParts(c.addresses[0])), ", ")
  {
    if |c.addresses| == 0 then ""
    else Text.JoinNonEmpty(AddressParts(c.addresses[0]), ", ")
  }

  /** With every part of the first address present, the short address is all
      four of them in order. */
  lemma ShortAddressAllParts(c: Contact)
    requires |c.addresses| > 0
    requires var a := c.addresses[0]; a.address != "" && a.city != "" && a.county != "" && a.postCode != ""
    ensures var a := c.addresses[0];
      ShortAddress(c) == a.address + ", " + a.city + ", " + a.county + ", " + a.postCode
  {
    var a := c.addresses[0];
    var ps := AddressParts(a);
    Text.NonEmptyPartsAllFull(ps);
    assert ps[1..][1..][1..] == [a.postCode];
    assert Text.Join(ps[1..][1..], ", ") == a.county + ", " + a.postCode;
    assert Text.Join(ps[1..], ", ") == a.city + ", " + a.county + ", " + a.postCode;
  }

  /** primaryEmail: null without addresses, otherwise the first. */
  function PrimaryEmail(c: Contact): (r: Option<Email>)
    ensures r.None? <==> |c.emailAddresses| == 0
    ensures r.Some? ==> r.value == c.emailAddresses[0]
  {
    if |c.emailAddresses| == 0 then None else Some(c.emailAddresses[0])
  }

  /** primaryPhone: null without numbers, otherwise the first. */
  function PrimaryPhone(c: Contact): (r: Option<Phone>)
    ensures r.None? <==> |c.phoneNumbers| == 0
    ensures r.Some? ==> r.value == c.phoneNumbers[0]
  {
    if |c.phoneNumbers| == 0 then None else Some(c.phoneNumbers[0])
  }

  // ---------------------------------------------------------------- Storing

  function ContactAt(s: Kv.Store, id: string): Option<ContactRecord> {
    match Kv.HGetAll(s, CONTACT + id)
    case Some(ContactHash(c)) => Some(c)
    case _ => None
  }

  /** The MULTI batch `storePerson` queues. */
  function PersonOps(rec: ContactRecord): seq<Kv.Op> {
    var idText := Text.NatText(rec.id);
    [Kv.HMSet(CONTACT + idText, ContactHash(rec))]
    + (if Truthy(rec.organisation) then [Kv.SAdd(ORG_TO_PEOPLE + ToText(rec.organisation), idText)] else [])
    + [Kv.RPush(CONTACTS, idText), Kv.RPush(PEOPLE, idText)]
  }

  /** storePerson: allocates the next id and, in one batch, writes the record,
      adds the id to its organisation's people when it has an organisation,
      and appends it to `contacts` and `contacts:people`. */
  function StorePerson(s: Kv.Store, person: ContactInput): (r: (Kv.Store, Contact))
    ensures r.1.id == Kv.Counter(s, NEXT_ID) + 1 && Kv.Counter(r.0, NEXT_ID) == r.1.id
    ensures r.1 == AsContact(PrepareForStorage(person, r.1.id, TYPE_PERSON))
    ensures ContactAt(r.0, Text.NatText(r.1.id)) == Some(PrepareForStorage(person, r.1.id, TYPE_PERSON))
    ensures Kv.ListAt(r.0, CONTACTS) == Kv.ListAt(s, CONTACTS) + [Text.NatText(r.1.id)]
    ensures Kv.ListAt(r.0, PEOPLE) == Kv.ListAt(s, PEOPLE) + [Text.NatText(r.1.id)]
    ensures forall k :: k != CONTACTS && k != PEOPLE ==> Kv.ListAt(r.0, k) == Kv.ListAt(s, k)
    ensures Truthy(person.organisation) ==>
      (forall x :: x in Kv.SetAt(r.0, ORG_TO_PEOPLE + ToText(person.organisation)) <==>
         x in Kv.SetAt(s, ORG_TO_PEOPLE + ToText(person.organisation)) || x == Text.NatText(r.1.id))
    ensures forall k :: ((!Truthy(person.organisation) || k != ORG_TO_PEOPLE + ToText(person.organisation))
      ==> Kv.SetAt(r.0, k) == Kv.SetAt(s, k))
    ensures r.0.hashes == s.hashes[CONTACT + Text.NatText(r.1.id) :=
      ContactHash(PrepareForStorage(person, r.1.id, TYPE_PERSON))]
    ensures forall k :: k != NEXT_ID ==> Kv.Counter(r.0, k) == Kv.Counter(s, k)
    ensures r.0.strings == s.strings && r.0.zsets == s.zsets
  {
    var (s1, id) := Kv.Incr(s, NEXT_ID);
    var rec := PrepareForStorage(person, id, TYPE_PERSON);
    ExecPersonOps(s1, rec);
    AfterPersonOpsRecord(s1, rec);
    AfterPersonOpsLists(s1, rec);
    AfterPersonOpsOrgSet(s1, rec);
    AfterPersonOpsOtherSets(s1, rec);
    AfterPersonOpsUnchanged(s1, rec);
    (Kv.Exec(s1, PersonOps(rec)), AsContact(rec))
  }

  /** The store after the writes of `PersonOps`, one write at a time. */
  function AfterPersonOps(s1: Kv.Store, rec: ContactRecord): Kv.Store {
    var idText := Text.NatText(rec.id);
    var s2 := Kv.ApplyOp(s1, Kv.HMSet(CONTACT + idText, ContactHash(rec)));
    var s3 := if Truthy(rec.organisation)
              then Kv.ApplyOp(s2, Kv.SAdd(ORG_TO_PEOPLE + ToText(rec.organisation), idText))
              else s2;
    var s4 := Kv.ApplyOp(s3, Kv.RPush(CONTACTS, idText));
    Kv.ApplyOp(s4, Kv.RPush(PEOPLE, idText))
  }

  /** The record is written under its id. */
  lemma AfterPersonOpsRecord(s1: Kv.Store, rec: ContactRecord)
    ensures ContactAt(AfterPersonOps(s1, rec), Text.NatText(rec.id)) == Some(rec)
  {}

  /** The id is appended to `contacts` and `contacts:people`, and only there. */
  lemma AfterPersonOpsLists(s1: Kv.Store, rec: ContactRecord)
    ensures var r := AfterPersonOps(s1, rec); var idText := Text.NatText(rec.id);
      && Kv.ListAt(r, CONTACTS) == Kv.ListAt(s1, CONTACTS) + [idText]
      && Kv.ListAt(r, PEOPLE) == Kv.ListAt(s1, PEOPLE) + [idText]
      && (forall k :: k != CONTACTS && k != PEOPLE ==> Kv.ListAt(r, k) == Kv.ListAt(s1, k))
  {}

  /** With an organisation, its people set gains the id. */
  lemma AfterPersonOpsOrgSet(s1: Kv.Store, rec: ContactRecord)
    ensures var r := AfterPersonOps(s1, rec); var orgKey := ORG_TO_PEOPLE + ToText(rec.organisation);
      Truthy(rec.organisation) ==> forall x :: x in Kv.SetAt(r, orgKey) <==> x in Kv.SetAt(s1, orgKey) || x == Text.NatText(rec.id)
  {}

  /** No other set changes. */
  lemma AfterPersonOpsOtherSets(s1: Kv.Store, rec: ContactRecord)
    ensures var r := AfterPersonOps(s1, rec);
      forall k :: ((!Truthy(rec.organisation) || k != ORG_TO_PEOPLE + ToText(rec.organisation))
        ==> Kv.SetAt(r, k) == Kv.SetAt(s1, k))
  {}

  /** No sorted set, counter, string or other hash changes. */
  lemma AfterPersonOpsUnchanged(s1: Kv.Store, rec: ContactRecord)
    ensures var r := AfterPersonOps(s1, rec);
      && r.zsets == s1.zsets && r.counters == s1.counters && r.strings == s1.strings
      && r.hashes == s1.hashes[CONTACT + Text.NatText(rec.id) := ContactHash(rec)]
  {}

  lemma ExecPersonOps(s1: Kv.Store, rec: ContactRecord)
    ensures Kv.Exec(s1, PersonOps(rec)) == AfterPersonOps(s1, rec)
  {
    var idText := Text.NatText(rec.id);
    var ops := PersonOps(rec);
    var s2 := Kv.ApplyOp(s1, Kv.HMSet(CONTACT + idText, ContactHash(rec)));
    var s3 := if Truthy(rec.organisation)
              then Kv.ApplyOp(s2, Kv.SAdd(ORG_TO_PEOPLE + ToText(rec.organisation), idText))
              else s2;
    var s4 := Kv.ApplyOp(s3, Kv.RPush(CONTACTS, idText));
    var s5 := Kv.ApplyOp(s4, Kv.RPush(PEOPLE, idText));
    var tail := [Kv.RPush(CONTACTS, idText), Kv.RPush(PEOPLE, idText)];
    assert tail[1..][1..] == [];
    assert Kv.Exec(s4, tail[1..]) == s5;
    assert Kv.Exec(s3, tail) == s5;
    if Truthy(rec.organisation) {
      var mid := [Kv.SAdd(ORG_TO_PEOPLE + ToText(rec.organisation), idText)] + tail;
      assert mid[1..] == tail;
      assert ops == [Kv.HMSet(CONTACT + idText, ContactHash(rec))] + mid;
      assert ops[1..] == mid;
    } else {
      assert ops == [Kv.HMSet(CONTACT + idText, ContactHash(rec))] + tail;
      assert ops[1..] == tail;
    }
  }

  /** storeOrganisation: allocates the next id and, in one batch, writes the
      record and appends the id to `contacts` and `contacts:orgs`. */
  function StoreOrganisation(s: Kv.Store, organisation: ContactInput): (r: (Kv.Store, Contact))
    ensures r.1.id == Kv.Counter(s, NEXT_ID) + 1 && Kv.Counter(r.0, NEXT_ID) == r.1.id
    ensures r.1 == AsContact(PrepareForStorage(organisation, r.1.id, TYPE_ORGANISATION))
    ensures ContactAt(r.0, Text.NatText(r.1.id)) == Some(PrepareForStorage(organisation, r.1.id, TYPE_ORGANISATION))
    ensures Kv.ListAt(r.0, CONTACTS) == Kv.ListAt(s, CONTACTS) + [Text.NatText(r.1.id)]
    ensures Kv.ListAt(r.0, ORGANISATIONS) == Kv.ListAt(s, ORGANISATIONS) + [Text.NatText(r.1.id)]
    ensures forall k :: k != CONTACTS && k != ORGANISATIONS ==> Kv.ListAt(r.0, k) == Kv.ListAt(s, k)
    ensures r.0.hashes == s.hashes[CONTACT + Text.NatText(r.1.id) :=
      ContactHash(PrepareForStorage(organisation, r.1.id, TYPE_ORGANISATION))]
    ensures forall k :: k != NEXT_ID ==> Kv.Counter(r.0, k) == Kv.Counter(s, k)
    ensures r.0.strings == s.strings && r.0.sets == s.sets && r.0.zsets == s.zsets
  {
    var (s1, id) := Kv.Incr(s, NEXT_ID);
    var rec := PrepareForStorage(organisation, id, TYPE_ORGANISATION);
    var idText := Text.NatText(id);
    var ops := [Kv.HMSet(CONTACT + idText, ContactHash(rec)),
                Kv.RPush(CONTACTS, idText), Kv.RPush(ORGANISATIONS, idText)];
    var s2 := Kv.ApplyOp(s1, ops[0]);
    var s3 := Kv.ApplyOp(s2, ops[1]);
    var s4 := Kv.ApplyOp(s3, ops[2]);
    assert Kv.Exec(s1, ops) == s4 by {
      assert ops[1..][1..][1..] == [];
      assert Kv.Exec(s3, ops[1..][1..]) == s4;
      assert Kv.Exec(s2, ops[1..]) == s4;
    }
    (Kv.Exec(s1, ops), AsContact(rec))
  }

  // --------------------------------------------------------------- Reading

  /** lookupKey: the id list to read for a contact type (compared with `===`). */
  function LookupKey(contactType: JsValue): (k: string)
    ensures k == PEOPLE <==> contactType == Str(TYPE_PERSON)
    ensures k == ORGANISATIONS <==> contactType == Str(TYPE_ORGANISATION)
    ensures k == CONTACTS <==> contactType != Str(TYPE_PERSON) && contactType != Str(TYPE_ORGANISATION)
  {
    if contactType == Str(TYPE_PERSON) then PEOPLE
    else if contactType == Str(TYPE_ORGANISATION) then ORGANISATIONS
    else CONTACTS
  }

  /** The `fetchRelated` option of byId and get: `false`, or anything other
      than `'full'`, which selects the partial related data. */
  datatype Related = NotRelated | PartialRelated

  /** The `{id, name, jobTitle}` summary HMGET gives of a person; every field
      is null when there is no such hash. */
  function Summary(s: Kv.Store, id: string): (r: PersonSummary)
    ensures ContactAt(s, id).None? ==> r == PersonSummary(None, "", None)
    ensures ContactAt(s, id).Some? ==>
      && r.personId == Some(Text.NatText(ContactAt(s, id).value.id))
      && r.personName == PersonName(ContactAt(s, id).value.firstName, ContactAt(s, id).value.lastName)
      && r.personJobTitle == Some(ContactAt(s, id).value.jobTitle)
  {
    match ContactAt(s, id)
    case None => PersonSummary(None, "", None)
    case Some(p) => PersonSummary(Some(Text.NatText(p.id)), PersonName(p.firstName, p.lastName), Some(p.jobTitle))
  }

  /** fetchPartialRelated: an organisation gets a summary of each of its
      people; a person with an organisation gets the organisation's
      `{id, name}`; any other type is an error. */
  function FetchPartialRelated(s: Kv.Store, c: Contact): (r: Result<Contact>)
    ensures r.Err? <==> c.contactType != TYPE_PERSON && c.contactType != TYPE_ORGANISATION
    ensures r.Ok? && c.contactType == TYPE_ORGANISATION && c.kind.Organisation? ==>
      var ids := Kv.SetAt(s, ORG_TO_PEOPLE + Text.NatText(c.id));
      && r.value.(kind := c.kind) == c
      && r.value.kind.Organisation?
      && |r.value.kind.people| == |c.kind.people| + |ids|
      && r.value.kind.people[..|c.kind.people|] == c.kind.people
      && forall i :: 0 <= i < |ids| ==> r.value.kind.people[|c.kind.people| + i] == Summary(s, ids[i])
    ensures r.Ok? && c.contactType == TYPE_PERSON && c.organisation.OrgId? ==>
      var org := c.organisation.raw;
      && (!Truthy(org) ==> r.value == c)
      && (Truthy(org) && ContactAt(s, ToText(org)).None? ==>
            r.value == c.(organisation := OrgSummary(None, None)))
      && (Truthy(org) && ContactAt(s, ToText(org)).Some? ==>
            r.value == c.(organisation := OrgSummary(Some(Text.NatText(ContactAt(s, ToText(org)).value.id)),
                                                     Some(ContactAt(s, ToText(org)).value.name))))
    ensures r.Ok? ==> r.value.id == c.id && r.value.contactType == c.contactType
  {
    if c.contactType == TYPE_ORGANISATION then
      var ids := Kv.SetAt(s, ORG_TO_PEOPLE + Text.NatText(c.id));
      var summaries := seq(|ids|, i requires 0 <= i < |ids| => Summary(s, ids[i]));
      match c.kind
      case Organisation(people) => Ok(c.(kind := Organisation(people + summaries)))
      case Person => Ok(c)
    else if c.contactType == TYPE_PERSON then
      match c.organisation
      case OrgId(org) =>
        if !Truthy(org) then Ok(c)
        else
          var summary := match ContactAt(s, ToText(org))
            case None => OrgSummary(None, None)
            case Some(o) => OrgSummary(Some(Text.NatText(o.id)), Some(o.name));
          Ok(c.(organisation := summary))
      case OrgSummary(_, _) => Ok(c)
    else Err("Unknown contact type: " + c.contactType)
  }

  /** byId: null when there is no hash; otherwise the decoded contact, with
      partial related data when asked for. */
  function ById(s: Kv.Store, id: string, related: Related): (r: Result<Option<Contact>>)
    ensures ContactAt(s, id).None? ==> r == Ok(None)
    ensures related == NotRelated && ContactAt(s, id).Some? ==> r == Ok(Some(AsContact(ContactAt(s, id).value)))
    ensures related == PartialRelated && ContactAt(s, id).Some? ==>
      var f := FetchPartialRelated(s, AsContact(ContactAt(s, id).value));
      (r.Ok? <==> f.Ok?) && (r.Ok? ==> r.value == Some(f.value))
  {
    match ContactAt(s, id)
    case None => Ok(None)
    case Some(rec) =>
      var c := AsContact(rec);
      if related == NotRelated then Ok(Some(c))
      else match FetchPartialRelated(s, c)
        case Ok(c') => Ok(Some(c'))
        case Err(e) => Err(e)
  }

  /** The options of `get`. */
  datatype GetOptions = GetOptions(start: int, count: int, related: Related, contactType: JsValue)

  const DefaultOptions := GetOptions(0, 30, NotRelated, Null)

  /** The ids `get` reads: list positions start .. start+count-1 of the list
      for the type. */
  function PageIds(s: Kv.Store, o: GetOptions): (ids: seq<string>)
    ensures 0 <= o.start && 1 <= o.count ==> |ids| <= o.count
    ensures 0 <= o.start < |Kv.ListAt(s, LookupKey(o.contactType))| && 1 <= o.count ==>
      ids == Kv.ListAt(s, LookupKey(o.contactType))[o.start..
        if o.start + o.count <= |Kv.ListAt(s, LookupKey(o.contactType))| then o.start + o.count
        else |Kv.ListAt(s, LookupKey(o.contactType))|]
  {
    Kv.RangeByRank(Kv.ListAt(s, LookupKey(o.contactType)), o.start, o.start + (o.count - 1))
  }

  /** A count of zero asks LRANGE for stop -1, which reads to the end of the
      list: from the start of the list, that is every contact of the type. */
  lemma ZeroCountReadsWholeList(s: Kv.Store, related: Related, contactType: JsValue)
    ensures PageIds(s, GetOptions(0, 0, related, contactType)) == Kv.ListAt(s, LookupKey(contactType))
  {
  }

  function FetchAll(s: Kv.Store, ids: seq<string>, related: Related): (r: Result<seq<Option<Contact>>>)
    ensures r.Ok? ==> |r.value| == |ids|
    ensures related == NotRelated ==> r.Ok?
    ensures r.Ok? ==> forall i :: 0 <= i < |ids| ==> ById(s, ids[i], related) == Ok(r.value[i])
    decreases |ids|
  {
    if |ids| == 0 then Ok([])
    else
      var head := ById(s, ids[0], related);
      var tail := FetchAll(s, ids[1..], related);
      if head.Err? then Err(head.message)
      else if tail.Err? then Err(tail.message)
      else
        var r := [head.value] + tail.value;
        assert forall i :: 1 <= i < |ids| ==> ids[i] == ids[1..][i - 1] && r[i] == tail.value[i - 1];
        Ok(r)
  }

  /** get: the contacts at the page of ids, in list order; at most `count`
      of them for a count of at least one. */
  function Get(s: Kv.Store, o: GetOptions): (r: Result<seq<Option<Contact>>>)
    ensures r.Ok? ==> |r.value| == |PageIds(s, o)|
    ensures r.Ok? && 0 <= o.start && 1 <= o.count ==> |r.value| <= o.count
    ensures o.related == NotRelated ==> r.Ok?
    ensures r.Ok? ==> forall i :: 0 <= i < |r.value| ==> ById(s, PageIds(s, o)[i], o.related) == Ok(r.value[i])
  {
    FetchAll(s, PageIds(s, o), o.related)
  }

  /** A stored person is read back as returned, and sits last in the lists
      `get` reads for type `person` and for no type. */
  lemma StorePersonThenRead(s: Kv.Store, person: ContactInput)
    ensures var s' := StorePerson(s, person).0; var c := StorePerson(s, person).1;
      ById(s', Text.NatText(c.id), NotRelated) == Ok(Some(c)) &&
      Kv.ListAt(s', LookupKey(Str(TYPE_PERSON)))[|Kv.ListAt(s', LookupKey(Str(TYPE_PERSON)))| - 1] == Text.NatText(c.id) &&
      Kv.ListAt(s', LookupKey(Null))[|Kv.ListAt(s', LookupKey(Null))| - 1] == Text.NatText(c.id)
  {
  }

  /** A person stored with an organisation shows up, by name, among the
      people that partial related data lists for that organisation. */
  lemma StorePersonListedByOrganisation(s: Kv.Store, person: ContactInput, org: Contact)
    requires org.contactType == TYPE_ORGANISATION && org.kind.Organisation?
    requires Truthy(person.organisation) && ToText(person.organisation) == Text.NatText(org.id)
    ensures var (s', c) := StorePerson(s, person);
      var r := FetchPartialRelated(s', org);
      && r.Ok?
      && exists i :: 0 <= i < |r.value.kind.people| &&
           r.value.kind.people[i].personId == Some(Text.NatText(c.id)) &&
           r.value.kind.people[i].personName == PersonName(person.firstName, person.lastName)
  {
    var (s', c) := StorePerson(s, person);
    var ids := Kv.SetAt(s', ORG_TO_PEOPLE + Text.NatText(org.id));
    assert Text.NatText(c.id) in ids;
    var j :| 0 <= j < |ids| && ids[j] == Text.NatText(c.id);
    var r := FetchPartialRelated(s', org);
    assert r.value.kind.people[|org.kind.people| + j] == Summary(s', Text.NatText(c.id));
  }

  /** A stored person's email addresses read back in order, so its primary
      email is the first one it was stored with. */
  lemma StorePersonPrimaryEmail(s: Kv.Store, person: ContactInput)
    ensures var c := StorePerson(s, person).1;
      PrimaryEmail(c) == (if |OrEmpty(person.emailAddresses)| == 0 then None
                          else Some(OrEmpty(person.emailAddresses)[0]))
  {
  }
}

=== FILE: helpers.dfy ===
/**
 * helpers.js: the template helpers that turn the newlines of user text into
 * HTML. Jade's `escape` is a parameter; nothing here depends on what it does.
 */
module Helpers {
  import Text

  // ------------------------------------------------------------- Newlines

  /** normaliseNewlines: every `\r\n`, lone `\r` and `\n` becomes `\n`
      (`\r\n` is tried first, as in the alternation `/\r\n|\r|\n/`). */
  function NormaliseNewlines(s: string): (r: string)
    ensures '\r' !in r
    ensures '\r' !in s ==> r == s
    ensures |r| <= |s|
    decreases |s|
  {
    if |s| == 0 then ""
    else if s[0] == '\r' && |s| >= 2 && s[1] == '\n' then "\n" + NormaliseNewlines(s[2..])
    else if s[0] == '\r' then "\n" + NormaliseNewlines(s[1..])
    else
      assert '\r' !in s ==> '\r' !in s[1..];
      assert s == [s[0]] + s[1..];
      [s[0]] + NormaliseNewlines(s[1..])
  }

  /** Normalising twice is normalising once. */
  lemma NormaliseIdempotent(s: string)
    ensures NormaliseNewlines(NormaliseNewlines(s)) == NormaliseNewlines(s)
  {
  }

  /** `s.split(/\r\n|\r|\n/)`. */
  function SplitMixed(s: string): (r: seq<string>)
    ensures |r| > 0
    ensures forall i :: 0 <= i < |r| ==> '\r' !in r[i] && '\n' !in r[i]
    decreases |s|
  {
    if |s| == 0 then [""]
    else if s[0] == '\r' && |s| >= 2 && s[1] == '\n' then [""] + SplitMixed(s[2..])
    else if s[0] == '\r' || s[0] == '\n' then [""] + SplitMixed(s[1..])
    else
      var rest := SplitMixed(s[1..]);
      [[s[0]] + rest[0]] + rest[1..]
  }

  /** Splitting on every newline variant is splitting the normalised text on
      `\n`. */
  lemma {:induction false} SplitMixedNormalised(s: string)
    ensures SplitMixed(s) == Text.SplitOn(NormaliseNewlines(s), '\n')
    decreases |s|
  {
    if |s| == 0 {
    } else if s[0] == '\r' && |s| >= 2 && s[1] == '\n' {
      SplitMixedNormalised(s[2..]);
      assert ("\n" + NormaliseNewlines(s[2..]))[1..] == NormaliseNewlines(s[2..]);
    } else if s[0] == '\r' || s[0] == '\n' {
      SplitMixedNormalised(s[1..]);
      if s[0] == '\r' {
        assert ("\n" + NormaliseNewlines(s[1..]))[1..] == NormaliseNewlines(s[1..]);
      } else {
        assert ([s[0]] + NormaliseNewlines(s[1..]))[1..] == NormaliseNewlines(s[1..]);
      }
    } else {
      SplitMixedNormalised(s[1..]);
      assert ([s[0]] + NormaliseNewlines(s[1..]))[1..] == NormaliseNewlines(s[1..]);
    }
  }

  // ------------------------------------------------------------ Paragraphs

  function Newlines(n: nat): (r: string)
    ensures |r| == n && forall i :: 0 <= i < n ==> r[i] == '\n'
  {
    seq(n, _ => '\n')
  }

  /** The number of `\n` at the start of `s`. */
  function LeadingNewlines(s: string): (n: nat)
    ensures n <= |s|
    ensures forall i :: 0 <= i < n ==> s[i] == '\n'
    ensures n < |s| ==> s[n] != '\n'
    decreases |s|
  {
    if |s| > 0 && s[0] == '\n' then 1 + LeadingNewlines(s[1..]) else 0
  }

  /** No two adjacent `\n`. */
  predicate NoDoubleNewline(s: string) {
    forall j :: 0 <= j < |s| - 1 ==> !(s[j] == '\n' && s[j + 1] == '\n')
  }

  /** The pieces interleaved with runs of that many newlines. */
  function Weave(pieces: seq<string>, runs: seq<nat>): string
    requires |pieces| == |runs| + 1
    decreases |runs|
  {
    if |runs| == 0 then pieces[0]
    else pieces[0] + Newlines(runs[0]) + Weave(pieces[1..], runs[1..])
  }

  lemma WeavePrepend(c: char, pieces: seq<string>, runs: seq<nat>)
    requires |pieces| == |runs| + 1
    ensures Weave([[c] + pieces[0]] + pieces[1..], runs) == [c] + Weave(pieces, runs)
  {
    var ps := [[c] + pieces[0]] + pieces[1..];
    assert ps[1..] == pieces[1..];
  }

  /** `s.split(/\n{2,}/)`, with the length of each run it split at: the
      pieces between maximal runs of two or more newlines. */
  function SplitParas(s: string): (r: (seq<string>, seq<nat>))
    ensures |r.0| == |r.1| + 1
    ensures forall i :: 0 <= i < |r.1| ==> r.1[i] >= 2
    ensures |r.0[0]| > 0 ==> |s| > 0 && r.0[0][0] == s[0]
    ensures |r.0| > 1 && r.0[0] == "" ==> |s| >= 2 && s[0] == '\n' && s[1] == '\n'
    decreases |s|
  {
    if |s| == 0 then ([""], [])
    else if |s| >= 2 && s[0] == '\n' && s[1] == '\n' then
      var n := LeadingNewlines(s);
      var rest := SplitParas(s[n..]);
      ([""] + rest.0, [n] + rest.1)
    else
      var rest := SplitParas(s[1..]);
      ([[s[0]] + rest.0[0]] + rest.0[1..], rest.1)
  }

  lemma WeaveRunStep(s: string, n: nat, pieces: seq<string>, runs: seq<nat>)
    requires n <= |s| && forall i :: 0 <= i < n ==> s[i] == '\n'
    requires |pieces| == |runs| + 1 && Weave(pieces, runs) == s[n..]
    ensures Weave([""] + pieces, [n] + runs) == s
  {
    var ps, rs := [""] + pieces, [n] + runs;
    assert ps[1..] == pieces && rs[1..] == runs;
    assert Weave(ps, rs) == "" + Newlines(n) + Weave(pieces, runs);
    assert s[..n] == Newlines(n);
    assert s == s[..n] + s[n..];
  }

  /** Nothing is lost: weaving the runs back between the pieces gives the
      text. */
  lemma {:induction false} SplitParasWeave(s: string)
    ensures Weave(SplitParas(s).0, SplitParas(s).1) == s
    decreases |s|
  {
    if |s| == 0 {
    } else if |s| >= 2 && s[0] == '\n' && s[1] == '\n' {
      var n := LeadingNewlines(s);
      SplitParasWeave(s[n..]);
      WeaveRunStep(s, n, SplitParas(s[n..]).0, SplitParas(s[n..]).1);
    } else {
      SplitParasWeave(s[1..]);
      WeavePrepend(s[0], SplitParas(s[1..]).0, SplitParas(s[1..]).1);
      assert s == [s[0]] + s[1..];
    }
  }

  predicate MaximalSplit(ps: seq<string>) {
    && (forall i :: 0 <= i < |ps| ==> NoDoubleNewline(ps[i]))
    && (forall i :: 0 < i < |ps| ==> |ps[i]| == 0 || ps[i][0] != '\n')
    && (forall i :: 0 <= i < |ps| - 1 ==> |ps[i]| == 0 || ps[i][|ps[i]| - 1] != '\n')
  }

  lemma MaximalAfterRun(ps: seq<string>)
    requires |ps| > 0 && MaximalSplit(ps) && (|ps[0]| == 0 || ps[0][0] != '\n')
    ensures MaximalSplit([""] + ps)
  {
    var qs := [""] + ps;
    forall i | 0 < i < |qs| ensures qs[i] == ps[i - 1] {}
  }

  lemma MaximalPrepend(c: char, ps: seq<string>)
    requires |ps| > 0 && MaximalSplit(ps)
    requires c == '\n' && |ps[0]| > 0 ==> ps[0][0] != '\n'
    requires |ps| > 1 && ps[0] == "" ==> c != '\n'
    ensures MaximalSplit([[c] + ps[0]] + ps[1..])
  {
    var p := [c] + ps[0];
    var qs := [p] + ps[1..];
    forall i | 0 < i < |qs| ensures qs[i] == ps[i] {}
    assert NoDoubleNewline(p) by {
      forall j | 0 <= j < |p| - 1
        ensures !(p[j] == '\n' && p[j + 1] == '\n')
      {
        if j > 0 {
          assert p[j] == ps[0][j - 1] && p[j + 1] == ps[0][j];
        }
      }
    }
    if |qs| > 1 && |ps[0]| > 0 {
      assert p[|p| - 1] == ps[0][|ps[0]| - 1];
    }
  }

  /** The splits are maximal runs: no piece holds two adjacent newlines, no
      piece after a run starts with one and no piece before a run ends with
      one. */
  lemma {:induction false} SplitParasPieces(s: string)
    ensures MaximalSplit(SplitParas(s).0)
    decreases |s|
  {
    if |s| == 0 {
    } else if |s| >= 2 && s[0] == '\n' && s[1] == '\n' {
      var n := LeadingNewlines(s);
      SplitParasPieces(s[n..]);
      var ps := SplitParas(s[n..]).0;
      if |ps[0]| > 0 {
        assert ps[0][0] == s[n..][0] == s[n];
      }
      MaximalAfterRun(ps);
    } else {
      SplitParasPieces(s[1..]);
      var ps := SplitParas(s[1..]).0;
      if |ps[0]| > 0 {
        assert ps[0][0] == s[1..][0] == s[1];
      }
      MaximalPrepend(s[0], ps);
    }
  }

  /** `p.replace(/\n/g, '<br>')`. */
  function ReplaceNewlines(p: string): (r: string)
    ensures '\n' !in r
    decreases |p|
  {
    if |p| == 0 then ""
    else if p[0] == '\n' then "<br>" + ReplaceNewlines(p[1..])
    else [p[0]] + ReplaceNewlines(p[1..])
  }

  /** Replacing each newline is splitting on newlines and joining with the
      replacement. */
  lemma {:induction false} ReplaceIsSplitJoin(p: string)
    ensures ReplaceNewlines(p) == Text.Join(Text.SplitOn(p, '\n'), "<br>")
    decreases |p|
  {
    if |p| > 0 {
      ReplaceIsSplitJoin(p[1..]);
      var rest := Text.SplitOn(p[1..], '\n');
      if p[0] == '\n' {
        assert ([""] + rest)[1..] == rest;
      } else {
        Text.JoinPrependHead(p[0], rest, "<br>");
      }
    }
  }

  // -------------------------------------------------------------- Joining

  /** A character absent from every part and from the separator is absent
      from the join. */
  lemma {:induction false} JoinFree(parts: seq<string>, sep: string, c: char)
    requires c !in sep && forall i :: 0 <= i < |parts| ==> c !in parts[i]
    ensures c !in Text.Join(parts, sep)
    decreases |parts|
  {
    if |parts| > 1 {
      JoinFree(parts[1..], sep, c);
    }
  }

  lemma NoDoubleNewlineAppend(a: string, b: string)
    requires NoDoubleNewline(a) && NoDoubleNewline(b)
    requires |a| == 0 || |b| == 0 || a[|a| - 1] != '\n' || b[0] != '\n'
    ensures NoDoubleNewline(a + b)
  {
    var s := a + b;
    forall j | 0 <= j < |s| - 1
      ensures !(s[j] == '\n' && s[j + 1] == '\n')
    {
      if j + 1 < |a| {
        assert s[j] == a[j] && s[j + 1] == a[j + 1];
      } else if j >= |a| {
        assert s[j] == b[j - |a|] && s[j + 1] == b[j + 1 - |a|];
      }
    }
  }

  /** Joining newline-run-free parts with a separator that has no newline
      leaves no run of newlines. */
  lemma {:induction false} JoinNoDoubleNewline(parts: seq<string>, sep: string)
    requires |sep| > 0 && '\n' !in sep
    requires forall i :: 0 <= i < |parts| ==> NoDoubleNewline(parts[i])
    ensures NoDoubleNewline(Text.Join(parts, sep))
    decreases |parts|
  {
    if |parts| > 1 {
      JoinNoDoubleNewline(parts[1..], sep);
      var rest := Text.Join(parts[1..], sep);
      assert NoDoubleNewline(sep) by {
        forall j | 0 <= j < |sep| - 1 ensures sep[j] != '\n' {
          assert sep[j] in sep;
        }
      }
      assert sep[0] in sep && sep[|sep| - 1] in sep;
      NoDoubleNewlineAppend(parts[0], sep);
      assert (parts[0] + sep)[|parts[0] + sep| - 1] == sep[|sep| - 1];
      NoDoubleNewlineAppend(parts[0] + sep, rest);
    }
  }

  // --------------------------------------------------------------- Helpers

  function Paragraph(p: string): (r: string)
    ensures '\n' !in r
  {
    "<p>" + ReplaceNewlines(p) + "</p>"
  }

  function Paragraphs(pieces: seq<string>): (r: seq<string>)
    ensures |r| == |pieces|
    ensures forall i :: 0 <= i < |r| ==> r[i] == Paragraph(pieces[i])
  {
    seq(|pieces|, i requires 0 <= i < |pieces| => Paragraph(pieces[i]))
  }

  /** $linebreaks: the escaped, normalised text split at runs of two or more
      newlines, each piece a `<p>` with its single newlines as `<br>`, one
      paragraph per line. The lines of the result are exactly the
      paragraphs, one more than there are runs. */
  function Linebreaks(text: string, escape: string -> string): (r: string)
    ensures var sp := SplitParas(escape(NormaliseNewlines(text)));
      Text.SplitOn(r, '\n') == Paragraphs(sp.0) && |Text.SplitOn(r, '\n')| == |sp.1| + 1
  {
    var ps := Paragraphs(SplitParas(escape(NormaliseNewlines(text))).0);
    Text.SplitJoin(ps, '\n');
    Text.Join(ps, "\n")
  }

  /** $linebreaksslash: the same pieces joined with ` / `; the result has no
      run of newlines left, and text without a run is only escaped. */
  function Linebreaksslash(text: string, escape: string -> string): (r: string)
    ensures NoDoubleNewline(r)
    ensures |SplitParas(escape(NormaliseNewlines(text))).1| == 0 ==> r == escape(NormaliseNewlines(text))
  {
    var sp := SplitParas(escape(NormaliseNewlines(text)));
    SplitParasPieces(escape(NormaliseNewlines(text)));
    SplitParasWeave(escape(NormaliseNewlines(text)));
    JoinNoDoubleNewline(sp.0, " / ");
    Text.Join(sp.0, " / ")
  }

  /** $linebreaksbr: every newline variant of the escaped text becomes
      `<br>`, so no `\r` or `\n` is left. */
  function Linebreaksbr(text: string, escape: string -> string): (r: string)
    ensures '\r' !in r && '\n' !in r
  {
    var parts := SplitMixed(escape(text));
    JoinFree(parts, "<br>", '\r');
    JoinFree(parts, "<br>", '\n');
    Text.Join(parts, "<br>")
  }

  /** $linebreaksbr is the escaped text, normalised, with each newline
      replaced by `<br>`. */
  lemma LinebreaksbrReplaces(text: string, escape: string -> string)
    ensures Linebreaksbr(text, escape) == ReplaceNewlines(NormaliseNewlines(escape(text)))
  {
    SplitMixedNormalised(escape(text));
    ReplaceIsSplitJoin(NormaliseNewlines(escape(text)));
  }
}

=== FILE: js.dfy ===
/**
 * The JavaScript values that flow through the relation and date fields of
 * the storage layer, with the two normalisers of redis/util.js.
 */
module Js {
  import Text

  /** The values a relation or date field can hold. A `Record` is an object
      carrying its `id` property and the text `String()` gives it: that is
      `[object Object]` for a plain object such as a user or category as
      HGETALL returns it, and the name for a contact, whose prototype
      defines `toString`. A `Date` carries its instant in milliseconds since
      the epoch. */
  datatype JsValue =
    | Undefined
    | Null
    | Bool(b: bool)
    | Num(n: int)
    | Str(s: string)
    | Date(ms: int)
    | Record(id: JsValue, text: string)

  /** JavaScript truthiness (`!!v`). */
  predicate Truthy(v: JsValue) {
    match v
    case Undefined => false
    case Null => false
    case Bool(b) => b
    case Num(n) => n != 0
    case Str(s) => |s| > 0
    case Date(_) => true
    case Record(_, _) => true
  }

  /** `typeof v == 'object'` for a non-null value. */
  predicate IsObject(v: JsValue) {
    v.Date? || v.Record?
  }

  /** What `String()` gives a plain object, one without its own `toString`. */
  const PLAIN_OBJECT_TEXT := "[object Object]"

  /** The string a value becomes when concatenated onto a key prefix with `+`.
      An object renders as its `String()` text; a Date renders as its
      millisecond count (the time-zone dependent `Date.prototype.toString` is
      not part of this model). */
  function ToText(v: JsValue): string {
    match v
    case Undefined => "undefined"
    case Null => "null"
    case Bool(b) => if b then "true" else "false"
    case Num(n) => Text.IntText(n)
    case Str(s) => s
    case Date(ms) => Text.IntText(ms)
    case Record(_, text) => text
  }

  /** util.timestamp: a falsy value is returned unchanged, an object yields
      its `valueOf()` (the instant of a Date, the object itself for a plain
      object), anything else is returned as-is. */
  function Timestamp(v: JsValue): (r: JsValue)
    ensures !Truthy(v) ==> r == v
    ensures v.Date? ==> r == Num(v.ms)
    ensures v.Record? ==> r == v
    ensures !IsObject(v) ==> r == v
    ensures !r.Date?
  {
    if !Truthy(v) then v
    else match v
      case Date(ms) => Num(ms)
      case _ => v
  }

  /** util.rel: a falsy value is returned unchanged, an object yields its `id`
      property (a Date has none), anything else is returned as-is. */
  function Rel(v: JsValue): (r: JsValue)
    ensures !Truthy(v) ==> r == v
    ensures v.Record? ==> r == v.id
    ensures v.Date? ==> r == Undefined
    ensures !IsObject(v) ==> r == v
  {
    if !Truthy(v) then v
    else match v
      case Record(id, _) => id
      case Date(_) => Undefined
      case _ => v
  }

  /** Flattening a value twice is the same as once: what `timestamp` returns
      is never a Date again. */
  lemma TimestampIdempotent(v: JsValue)
    ensures Timestamp(Timestamp(v)) == Timestamp(v)
  {
  }

  /** Normalising a plain (non-object) id twice is the same as once. */
  lemma RelIdempotent(v: JsValue)
    requires !IsObject(v)
    ensures Rel(Rel(v)) == Rel(v)
  {
  }
}

=== FILE: kv.dfy ===
/**
 * The key-value store the storage modules sit on, as an immutable value:
 * counters (INCR), strings (SET/GET), hashes (HMSET/HGETALL), lists
 * (RPUSH/LRANGE/SORT), sets (SADD/SMEMBERS) and sorted sets
 * (ZADD/ZRANGE/ZRANGEBYSCORE), and MULTI/EXEC as one list of writes applied
 * in order.
 */
module Kv {
  import opened Results
  import Text
  import Records

  // ------------------------------------------------------------ Sorted sets

  /** One member of a sorted set with its score. */
  datatype Entry = Entry(member: string, score: int)

  /** Redis orders a sorted set by score, and members with equal scores by
      their bytes. */
  predicate Precedes(a: Entry, b: Entry) {
    a.score < b.score || (a.score == b.score && Text.Less(a.member, b.member))
  }

  lemma PrecedesTransitive(a: Entry, b: Entry, c: Entry)
    requires Precedes(a, b) && Precedes(b, c)
    ensures Precedes(a, c)
  {
    if a.score == b.score && b.score == c.score {
      Text.LessTransitive(a.member, b.member, c.member);
    }
  }

  lemma PrecedesTotal(a: Entry, b: Entry)
    requires a.member != b.member
    ensures Precedes(a, b) || Precedes(b, a)
  {
    Text.LessTotal(a.member, b.member);
  }

  /** The representation invariant of a sorted set: entries strictly ascending
      in Redis order, every member present once. */
  predicate ZValid(z: seq<Entry>)
    decreases |z|
  {
    |z| == 0 ||
    ((forall x | x in z[1..] :: Precedes(z[0], x) && x.member != z[0].member) && ZValid(z[1..]))
  }

  /** A valid sorted set is ascending at every pair of positions, with
      distinct members. */
  lemma {:induction false} ZValidAscending(z: seq<Entry>)
    requires ZValid(z)
    ensures forall i, j :: 0 <= i < j < |z| ==> Precedes(z[i], z[j]) && z[i].member != z[j].member
    ensures forall i, j :: 0 <= i < j < |z| ==> z[i].score <= z[j].score
    decreases |z|
  {
    if |z| > 0 {
      ZValidAscending(z[1..]);
      forall i, j | 0 <= i < j < |z|
        ensures Precedes(z[i], z[j]) && z[i].member != z[j].member
      {
        if i == 0 {
          assert z[j] in z[1..];
        } else {
          assert z[i] == z[1..][i - 1] && z[j] == z[1..][j - 1];
        }
      }
    }
  }

  /** The members of a sorted set in its order. */
  function Members(z: seq<Entry>): seq<string> {
    seq(|z|, i requires 0 <= i < |z| => z[i].member)
  }

  lemma MembersCons(z: seq<Entry>)
    requires |z| > 0
    ensures Members(z) == [z[0].member] + Members(z[1..])
  {
  }

  /** A member with no entry is not among the members. */
  lemma {:induction false} MembersAbsent(z: seq<Entry>, m: string)
    requires forall x | x in z :: x.member != m
    ensures multiset(Members(z))[m] == 0
    decreases |z|
  {
    if |z| > 0 {
      MembersCons(z);
      MembersAbsent(z[1..], m);
    }
  }

  /** In a valid sorted set every present member is listed exactly once. */
  lemma {:induction false} MembersOnce(z: seq<Entry>, e: Entry)
    requires ZValid(z) && e in z
    ensures multiset(Members(z))[e.member] == 1
    decreases |z|
  {
    MembersCons(z);
    if z[0] == e {
      MembersAbsent(z[1..], e.member);
    } else {
      assert e in z[1..];
      assert e.member != z[0].member;
      MembersOnce(z[1..], e);
    }
  }

  /** The entries of `z` other than the one for member `m`. */
  function Remove(z: seq<Entry>, m: string): (r: seq<Entry>)
    ensures forall x :: x in r <==> x in z && x.member != m
    ensures ZValid(z) ==> ZValid(r)
    decreases |z|
  {
    if |z| == 0 then []
    else if z[0].member == m then Remove(z[1..], m)
    else
      var rest := Remove(z[1..], m);
      assert ([z[0]] + rest)[1..] == rest;
      [z[0]] + rest
  }

  lemma InsertFrontValid(z: seq<Entry>, e: Entry)
    requires |z| > 0 && ZValid(z) && Precedes(e, z[0])
    requires forall x | x in z :: x.member != e.member
    ensures ZValid([e] + z)
  {
    var r := [e] + z;
    assert r[1..] == z;
    forall x | x in z
      ensures Precedes(e, x)
    {
      if x != z[0] {
        assert x in z[1..] by {
          var k :| 0 <= k < |z| && z[k] == x;
          assert z[1..][k - 1] == x;
        }
        PrecedesTransitive(e, z[0], x);
      }
    }
  }

  /** `z` with entry `e` placed at its position in Redis order. */
  function Insert(z: seq<Entry>, e: Entry): (r: seq<Entry>)
    ensures forall x :: x in r <==> x in z || x == e
    ensures ZValid(z) && (forall x | x in z :: x.member != e.member) ==> ZValid(r)
    decreases |z|
  {
    if |z| == 0 then [e]
    else if Precedes(e, z[0]) then
      if ZValid(z) && (forall x | x in z :: x.member != e.member) then
        InsertFrontValid(z, e);
        [e] + z
      else
        [e] + z
    else
      var rest := Insert(z[1..], e);
      assert ([z[0]] + rest)[1..] == rest;
      if e.member != z[0].member then
        PrecedesTotal(e, z[0]);
        [z[0]] + rest
      else
        [z[0]] + rest
  }

  /** ZADD: adds member `m` with `score`, re-scoring it when already present. */
  function ZAdd(z: seq<Entry>, m: string, score: int): (r: seq<Entry>)
    ensures forall x :: x in r <==> (x in z && x.member != m) || x == Entry(m, score)
    ensures ZValid(z) ==> ZValid(r)
  {
    Insert(Remove(z, m), Entry(m, score))
  }

  /** ZRANGEBYSCORE min max: the entries whose score lies in [lo, hi], bounds
      included, in set order. */
  function ZRangeByScore(z: seq<Entry>, lo: int, hi: int): (r: seq<Entry>)
    ensures forall x :: x in r <==> x in z && lo <= x.score <= hi
    ensures ZValid(z) ==> ZValid(r)
    decreases |z|
  {
    if |z| == 0 then []
    else if lo <= z[0].score <= hi then
      var rest := ZRangeByScore(z[1..], lo, hi);
      assert ([z[0]] + rest)[1..] == rest;
      [z[0]] + rest
    else ZRangeByScore(z[1..], lo, hi)
  }

  // ----------------------------------------------------------- Rank ranges

  /** The half-open window [lo, hi) of positions that LRANGE and ZRANGE read
      for inclusive `start` and `stop`, where negative values count from the
      end and out-of-range values are clipped. */
  function RankWindow(len: nat, start: int, stop: int): (w: (nat, nat))
    ensures w.0 <= w.1 <= len
  {
    var a := if start < 0 then len + start else start;
    var b := if stop < 0 then len + stop else stop;
    var a' := if a < 0 then 0 else a;
    if a' > b || a' >= len then (0, 0)
    else (a', if b >= len then len else b + 1)
  }

  /** LRANGE / ZRANGE key start stop. */
  function RangeByRank<T>(xs: seq<T>, start: int, stop: int): (r: seq<T>)
    ensures start == 0 && stop == -1 ==> r == xs
    ensures 0 <= start <= stop ==> |r| <= stop - start + 1
    ensures 0 <= start < |xs| && start <= stop ==> r == xs[start..if stop < |xs| then stop + 1 else |xs|]
    ensures 0 <= start && (0 <= stop < start || |xs| <= start) ==> r == []
  {
    var w := RankWindow(|xs|, start, stop);
    xs[w.0..w.1]
  }

  // ---------------------------------------------------------- Sorting lists

  /** `xs` ascends by the weight `w` of its elements. */
  predicate SortedBy(xs: seq<string>, w: string -> string)
    decreases |xs|
  {
    |xs| == 0 || ((forall y | y in xs[1..] :: Text.Le(w(xs[0]), w(y))) && SortedBy(xs[1..], w))
  }

  lemma {:induction false} SortedByPairwise(xs: seq<string>, w: string -> string)
    requires SortedBy(xs, w)
    ensures forall i, j :: 0 <= i < j < |xs| ==> Text.Le(w(xs[i]), w(xs[j]))
    decreases |xs|
  {
    if |xs| > 0 {
      SortedByPairwise(xs[1..], w);
      forall i, j | 0 <= i < j < |xs|
        ensures Text.Le(w(xs[i]), w(xs[j]))
      {
        if i == 0 {
          assert xs[j] in xs[1..];
        } else {
          assert xs[i] == xs[1..][i - 1] && xs[j] == xs[1..][j - 1];
        }
      }
    }
  }

  lemma InsertByFront(x: string, xs: seq<string>, w: string -> string)
    requires |xs| > 0 && SortedBy(xs, w) && Text.Le(w(x), w(xs[0]))
    ensures SortedBy([x] + xs, w)
  {
    assert ([x] + xs)[1..] == xs;
    forall y | y in xs
      ensures Text.Le(w(x), w(y))
    {
      if y != xs[0] {
        assert y in xs[1..] by {
          var k :| 0 <= k < |xs| && xs[k] == y;
          assert xs[1..][k - 1] == y;
        }
        Text.LeTransitive(w(x), w(xs[0]), w(y));
      }
    }
  }

  lemma InsertByBehind(x: string, xs: seq<string>, rest: seq<string>, w: string -> string)
    requires |xs| > 0 && !Text.Le(w(x), w(xs[0]))
    requires multiset(rest) == multiset(xs[1..]) + multiset{x}
    requires SortedBy(xs, w) ==> SortedBy(rest, w)
    ensures multiset([xs[0]] + rest) == multiset(xs) + multiset{x}
    ensures SortedBy(xs, w) ==> SortedBy([xs[0]] + rest, w)
  {
    assert xs == [xs[0]] + xs[1..];
    assert ([xs[0]] + rest)[1..] == rest;
    Text.LeTotal(w(x), w(xs[0]));
    if SortedBy(xs, w) {
      forall y | y in rest
        ensures Text.Le(w(xs[0]), w(y))
      {
        assert y in multiset(rest);
      }
    }
  }

  /** `x` inserted into `xs` before the first element it does not outweigh. */
  function InsertBy(x: string, xs: seq<string>, w: string -> string): (r: seq<string>)
    ensures multiset(r) == multiset(xs) + multiset{x}
    ensures SortedBy(xs, w) ==> SortedBy(r, w)
    decreases |xs|
  {
    if |xs| == 0 then [x]
    else if Text.Le(w(x), w(xs[0])) then
      if SortedBy(xs, w) then
        InsertByFront(x, xs, w);
        [x] + xs
      else
        [x] + xs
    else
      var rest := InsertBy(x, xs[1..], w);
      InsertByBehind(x, xs, rest, w);
      [xs[0]] + rest
  }

  /** SORT ... ALPHA: the elements ordered by weight (stably). */
  function SortBy(xs: seq<string>, w: string -> string): (r: seq<string>)
    ensures multiset(r) == multiset(xs)
    ensures SortedBy(r, w)
    decreases |xs|
  {
    if |xs| == 0 then []
    else
      assert xs == [xs[0]] + xs[1..];
      InsertBy(xs[0], SortBy(xs[1..], w), w)
  }

  // ------------------------------------------------------------------ Store

  datatype Store = Store(
    counters: map<string, nat>,
    strings: map<string, string>,
    hashes: map<string, Records.Hash>,
    lists: map<string, seq<string>>,
    sets: map<string, seq<string>>,
    zsets: map<string, seq<Entry>>)

  const EmptyStore := Store(map[], map[], map[], map[], map[], map[])

  /** Every sorted set of the store satisfies its representation invariant. */
  predicate Wf(s: Store) {
    forall k | k in s.zsets :: ZValid(s.zsets[k])
  }

  function Counter(s: Store, key: string): nat {
    if key in s.counters then s.counters[key] else 0
  }

  function GetString(s: Store, key: string): Option<string> {
    if key in s.strings then Some(s.strings[key]) else None
  }

  function HGetAll(s: Store, key: string): Option<Records.Hash> {
    if key in s.hashes then Some(s.hashes[key]) else None
  }

  function ListAt(s: Store, key: string): seq<string> {
    if key in s.lists then s.lists[key] else []
  }

  function SetAt(s: Store, key: string): seq<string> {
    if key in s.sets then s.sets[key] else []
  }

  function ZSetAt(s: Store, key: string): seq<Entry> {
    if key in s.zsets then s.zsets[key] else []
  }

  /** INCR: the counter's new value, one more than the old (a missing counter
      counts as 0), and the store with only that counter changed. */
  function Incr(s: Store, key: string): (r: (Store, nat))
    ensures r.1 == Counter(s, key) + 1 && Counter(r.0, key) == r.1
    ensures forall k :: k != key ==> Counter(r.0, k) == Counter(s, k)
    ensures r.0.(counters := s.counters) == s
    ensures Wf(s) ==> Wf(r.0)
  {
    var n := Counter(s, key) + 1;
    (s.(counters := s.counters[key := n]), n)
  }

  /** The writes queued inside MULTI. */
  datatype Op =
    | Set(key: string, value: string)
    | HMSet(key: string, hash: Records.Hash)
    | RPush(key: string, value: string)
    | SAdd(key: string, member: string)
    | ZAddOp(key: string, score: int, member: string)
    | SortByNameAlpha(key: string, hashPrefix: string)

  /** The weight SORT ... BY <prefix>*->name gives an element: the `name`
      field of the hash it points at, empty when there is none. */
  function NameWeight(hashes: map<string, Records.Hash>, prefix: string, e: string): string {
    var k := prefix + e;
    if k in hashes then
      match Records.NameField(hashes[k])
      case Some(n) => n
      case None => ""
    else ""
  }

  function ApplyOp(s: Store, op: Op): (r: Store)
    ensures Wf(s) ==> Wf(r)
  {
    match op
    case Set(k, v) => s.(strings := s.strings[k := v])
    case HMSet(k, h) => s.(hashes := s.hashes[k := h])
    case RPush(k, v) => s.(lists := s.lists[k := ListAt(s, k) + [v]])
    case SAdd(k, m) =>
      var members := SetAt(s, k);
      if m in members then s else s.(sets := s.sets[k := members + [m]])
    case ZAddOp(k, score, m) => s.(zsets := s.zsets[k := ZAdd(ZSetAt(s, k), m, score)])
    case SortByNameAlpha(k, prefix) =>
      var hashes := s.hashes;
      s.(lists := s.lists[k := SortBy(ListAt(s, k), e => NameWeight(hashes, prefix, e))])
  }

  /** EXEC: the queued writes applied in order, as one step. */
  function Exec(s: Store, ops: seq<Op>): (r: Store)
    ensures Wf(s) ==> Wf(r)
    decreases |ops|
  {
    if |ops| == 0 then s else Exec(ApplyOp(s, ops[0]), ops[1..])
  }

  lemma {:induction false} ExecAppend(s: Store, a: seq<Op>, b: seq<Op>)
    ensures Exec(s, a + b) == Exec(Exec(s, a), b)
    decreases |a|
  {
    if |a| > 0 {
      assert (a + b)[1..] == a[1..] + b;
      ExecAppend(ApplyOp(s, a[0]), a[1..], b);
    } else {
      assert a + b == b;
    }
  }
}

=== FILE: records.dfy ===
/**
 * The flat records the storage modules write into Redis hashes, one datatype
 * per entity, and the union of them that a hash key can hold.
 */
module Records {
  import opened Results
  import opened Js

  /** A task as `toRedis` flattens it: `due` is the instant in milliseconds and
      `time` the text `"true"` or `"false"` the client stores for the flag. */
  datatype TaskRecord = TaskRecord(
    id: nat,
    description: string,
    detail: string,
    due: int,
    time: string,
    category: JsValue,
    assignedTo: JsValue,
    contact: JsValue,
    completedAt: Option<int>,
    completedBy: JsValue)

  /** A category hash: the `name` it was stored with and its `id`. */
  datatype CategoryRecord = CategoryRecord(id: nat, name: string)

  /** A user hash. `password` holds the salted hash, never the password. */
  datatype UserRecord = UserRecord(
    id: nat,
    username: string,
    firstName: string,
    lastName: string,
    email: string,
    isAdmin: bool,
    salt: string,
    password: string)

  datatype Phone = Phone(number: string, kind: string)
  datatype Email = Email(email: string, kind: string)
  datatype Address = Address(
    address: string, kind: string, city: string, county: string, postCode: string, country: string)

  /** The JSON text of an array, as `JSON.stringify` produces it. The codec is
      not spelled out character by character: the text is represented by the
      array it encodes, so that `JSON.parse` recovers it. */
  datatype Json<T> = Json(encoded: seq<T>)

  function Stringify<T>(xs: seq<T>): Json<T> {
    Json(xs)
  }

  function Parse<T>(j: Json<T>): seq<T> {
    j.encoded
  }

  /** A contact hash, people and organisations alike: `type` tells them apart,
      the three arrays are JSON-encoded. */
  datatype ContactRecord = ContactRecord(
    id: nat,
    contactType: string,
    title: string,
    firstName: string,
    lastName: string,
    jobTitle: string,
    name: string,
    backgroundInfo: string,
    organisation: JsValue,
    phoneNumbers: Json<Phone>,
    emailAddresses: Json<Email>,
    addresses: Json<Address>)

  /** What one Redis hash key holds. */
  datatype Hash =
    | TaskHash(task: TaskRecord)
    | CategoryHash(category: CategoryRecord)
    | UserHash(user: UserRecord)
    | ContactHash(contact: ContactRecord)

  /** The `name` field of a hash, when it has one. */
  function NameField(h: Hash): Option<string> {
    match h
    case CategoryHash(c) => Some(c.name)
    case ContactHash(c) => Some(c.name)
    case _ => None
  }
}

=== FILE: results.dfy ===
/** Failure-carrying values: JavaScript's `null` results and error callbacks. */
module Results {

  /** A value that may be absent (`null` in the source). */
  datatype Option<+T> = None | Some(value: T)

  /** An outcome that is either a value or the message of an error passed to a callback. */
  datatype Result<+T> = Ok(value: T) | Err(message: string)
}

=== FILE: tasks.dfy ===
/**
 * redis/tasks.js: the task scheduler. A task is a hash under `task:#<id>`;
 * its id is also a member of up to five sorted sets, scored by its due
 * instant, that answer the filtered and date-ranged task queries.
 */
module Tasks {
  import opened Results
  import opened Js
  import Text
  import Kv
  import opened Records
  import Users
  import Categories
  import Contacts

  const TASK := "task:#"
  const TASKS := "tasks:cron"
  const NEXT_ID := "tasks:nextid"
  const USER_TASKS := "tasks:user:#"
  const CATEGORY_TASKS := "tasks:cat:#"
  const CONTACT_TASKS := "tasks:contact:#"

  function UserTasksByCategory(user: string, category: string): string {
    USER_TASKS + user + ":cat:#" + category
  }

  // ----------------------------------------------------------- Time of day

  const MINUTE_MS := 60000
  const HOUR_MS := 3600000
  const DAY_MS := 86400000

  /** The hour of an instant (UTC). */
  function Hours(ms: int): int {
    (ms % DAY_MS) / HOUR_MS
  }

  /** The minute of an instant (UTC). */
  function Minutes(ms: int): int {
    (ms % HOUR_MS) / MINUTE_MS
  }

  /** Euclidean division is determined by any quotient and in-range remainder. */
  lemma DivModUnique(a: int, d: int, q: int, r: int)
    requires d > 0 && 0 <= r < d && a == d * q + r
    ensures a / d == q && a % d == r
  {
    var q', r' := a / d, a % d;
    var k := q' - q;
    assert d * q' == d * q + d * k;
    if k >= 1 {
      MulAtLeast(d, k);
    } else if k <= -1 {
      MulAtLeast(d, -k);
    }
  }

  lemma MulAtLeast(d: int, k: int)
    requires d > 0 && k >= 1
    ensures d * k >= d
  {
    assert d * k == d + d * (k - 1);
  }

  /** Date.prototype.setHours: the hour replaced, minutes, seconds and
      milliseconds kept, on the same day. */
  function SetHours(ms: int, h: int): (r: int)
    requires 0 <= h < 24
    ensures Hours(r) == h && Minutes(r) == Minutes(ms)
    ensures r / DAY_MS == ms / DAY_MS && r % HOUR_MS == ms % HOUR_MS && r % MINUTE_MS == ms % MINUTE_MS
  {
    var qd, rd := ms / DAY_MS, ms % DAY_MS;
    var rh := rd % HOUR_MS;
    DivModUnique(rh, MINUTE_MS, rh / MINUTE_MS, rh % MINUTE_MS);
    DivModUnique(rd, HOUR_MS, rd / HOUR_MS, rh);
    DivModUnique(ms, HOUR_MS, 24 * qd + rd / HOUR_MS, rh);
    var r := ms - rd + h * HOUR_MS + rh;
    DivModUnique(r, DAY_MS, qd, h * HOUR_MS + rh);
    DivModUnique(h * HOUR_MS + rh, HOUR_MS, h, rh);
    DivModUnique(r, HOUR_MS, 24 * qd + h, rh);
    DivModUnique(ms, MINUTE_MS, 60 * (24 * qd + rd / HOUR_MS) + rh / MINUTE_MS, rh % MINUTE_MS);
    DivModUnique(r, MINUTE_MS, 60 * (24 * qd + h) + rh / MINUTE_MS, rh % MINUTE_MS);
    r
  }

  /** Date.prototype.setMinutes: the minute replaced, the hour, seconds and
      milliseconds kept, on the same day. */
  function SetMinutes(ms: int, m: int): (r: int)
    requires 0 <= m < 60
    ensures Minutes(r) == m && Hours(r) == Hours(ms)
    ensures r / DAY_MS == ms / DAY_MS && r % MINUTE_MS == ms % MINUTE_MS
  {
    var qd, rd := ms / DAY_MS, ms % DAY_MS;
    var qh, rh := rd / HOUR_MS, rd % HOUR_MS;
    var rm := rh % MINUTE_MS;
    DivModUnique(rd, HOUR_MS, qh, rh);
    DivModUnique(rh, MINUTE_MS, rh / MINUTE_MS, rm);
    DivModUnique(ms, HOUR_MS, 24 * qd + qh, rh);
    DivModUnique(ms, MINUTE_MS, 60 * (24 * qd + qh) + rh / MINUTE_MS, rm);
    var r := ms - rh + m * MINUTE_MS + rm;
    DivModUnique(r, HOUR_MS, 24 * qd + qh, m * MINUTE_MS + rm);
    DivModUnique(m * MINUTE_MS + rm, MINUTE_MS, m, rm);
    DivModUnique(r, DAY_MS, qd, qh * HOUR_MS + m * MINUTE_MS + rm);
    DivModUnique(qh * HOUR_MS + m * MINUTE_MS + rm, HOUR_MS, qh, m * MINUTE_MS + rm);
    DivModUnique(r, MINUTE_MS, 60 * (24 * qd + qh) + m, rm);
    r
  }

  lemma HoursRange(ms: int)
    ensures 0 <= Hours(ms) < 24 && 0 <= Minutes(ms) < 60
  {
  }

  // ---------------------------------------------------------------- Codec

  /** The task data `store` receives: `due` is a Date's instant and `time`,
      when given, the instant of the time-of-day Date the form produced. */
  datatype TaskInput = TaskInput(
    description: string,
    detail: string,
    due: int,
    time: Option<int>,
    category: JsValue,
    assignedTo: JsValue,
    contact: JsValue)

  /** A task as `fromRedis` rebuilds it: `time` is a Date equal to `due` when
      the flag was set, and `completedAt` a Date when present. */
  datatype Task = Task(
    id: nat,
    description: string,
    detail: string,
    due: int,
    time: Option<int>,
    category: JsValue,
    assignedTo: JsValue,
    contact: JsValue,
    completedAt: Option<int>,
    completedBy: JsValue)

  /** The due instant `toRedis` stores: the time's hour and minute merged into
      the due date when a time was given. */
  function MergedDue(t: TaskInput): (due: int)
    ensures t.time.None? ==> due == t.due
    ensures t.time.Some? ==>
      Hours(due) == Hours(t.time.value) && Minutes(due) == Minutes(t.time.value) &&
      due / DAY_MS == t.due / DAY_MS && due % MINUTE_MS == t.due % MINUTE_MS
  {
    match t.time
    case None => t.due
    case Some(tm) =>
      HoursRange(tm);
      SetMinutes(SetHours(t.due, Hours(tm)), Minutes(tm))
  }

  /** toRedis, on the task once `store` has given it its id: due flattened to
      a number and the time replaced by the flag. */
  function ToRedis(t: TaskInput, id: nat): (r: TaskRecord)
    ensures r.time == "true" <==> t.time.Some?
    ensures r.time == "false" <==> t.time.None?
    ensures r.id == id && r.due == MergedDue(t)
    ensures r.category == t.category && r.assignedTo == t.assignedTo && r.contact == t.contact
    ensures r.completedAt.None?
  {
    TaskRecord(id, t.description, t.detail, MergedDue(t),
               if t.time.Some? then "true" else "false",
               t.category, t.assignedTo, t.contact, None, Undefined)
  }

  /** fromRedis: due back to a Date, and a time equal to due exactly when the
      flag reads `'true'`. */
  function FromRedis(rec: TaskRecord): (t: Task)
    ensures t.time.Some? <==> rec.time == "true"
    ensures t.time.Some? ==> t.time.value == t.due
    ensures t.id == rec.id && t.due == rec.due && t.completedAt == rec.completedAt
  {
    Task(rec.id, rec.description, rec.detail, rec.due,
         if rec.time == "true" then Some(rec.due) else None,
         rec.category, rec.assignedTo, rec.contact, rec.completedAt, rec.completedBy)
  }

  /** taskProto.isCompleted: a completion Date is always truthy. */
  predicate IsCompleted(t: Task) {
    t.completedAt.Some?
  }

  /** Flattening and rebuilding a task keeps its fields, keeps whether it had
      a time, and places that time's hour and minute on the due date. */
  lemma CodecRoundTrip(t: TaskInput, id: nat)
    ensures var d := FromRedis(ToRedis(t, id));
      && d.id == id && d.description == t.description && d.detail == t.detail
      && d.category == t.category && d.assignedTo == t.assignedTo && d.contact == t.contact
      && !IsCompleted(d)
      && (d.time.Some? <==> t.time.Some?)
      && (t.time.None? ==> d.due == t.due)
      && (t.time.Some? ==> d.due / DAY_MS == t.due / DAY_MS &&
                           Hours(d.time.value) == Hours(t.time.value) &&
                           Minutes(d.time.value) == Minutes(t.time.value))
  {
  }

  // ---------------------------------------------------------- Index keys

  /** sortedSetKeys as written: the contact key is built from the raw
      `task.contact`, not from its normalised id. */
  function SortedSetKeysAsWritten(rec: TaskRecord): (keys: seq<string>)
    ensures TASKS in keys && USER_TASKS + ToText(Rel(rec.assignedTo)) in keys
    ensures CATEGORY_TASKS + ToText(Rel(rec.category)) in keys <==> Truthy(Rel(rec.category))
    ensures CONTACT_TASKS + ToText(rec.contact) in keys <==> Truthy(Rel(rec.contact))
    ensures |keys| == 2 + (if Truthy(Rel(rec.category)) then 2 else 0) + (if Truthy(Rel(rec.contact)) then 1 else 0)
  {
    var assignedTo := ToText(Rel(rec.assignedTo));
    var category := Rel(rec.category);
    var contact := Rel(rec.contact);
    KeysDiffer(assignedTo, ToText(category), ToText(rec.contact));
    [TASKS, USER_TASKS + assignedTo]
    + (if Truthy(category) then [CATEGORY_TASKS + ToText(category), UserTasksByCategory(assignedTo, ToText(category))] else [])
    + (if Truthy(contact) then [CONTACT_TASKS + ToText(rec.contact)] else [])
  }

  /** sortedSetKeys with the contact key built from the normalised contact
      id, as the category and user keys are. */
  function SortedSetKeys(rec: TaskRecord): (keys: seq<string>)
    ensures TASKS in keys && USER_TASKS + ToText(Rel(rec.assignedTo)) in keys
    ensures CATEGORY_TASKS + ToText(Rel(rec.category)) in keys <==> Truthy(Rel(rec.category))
    ensures UserTasksByCategory(ToText(Rel(rec.assignedTo)), ToText(Rel(rec.category))) in keys
            <==> Truthy(Rel(rec.category))
    ensures CONTACT_TASKS + ToText(Rel(rec.contact)) in keys <==> Truthy(Rel(rec.contact))
    ensures |keys| == 2 + (if Truthy(Rel(rec.category)) then 2 else 0) + (if Truthy(Rel(rec.contact)) then 1 else 0)
  {
    var assignedTo := ToText(Rel(rec.assignedTo));
    var category := ToText(Rel(rec.category));
    var contact := ToText(Rel(rec.contact));
    KeysDiffer(assignedTo, category, contact);
    [TASKS, USER_TASKS + assignedTo]
    + (if Truthy(Rel(rec.category)) then [CATEGORY_TASKS + category, UserTasksByCategory(assignedTo, category)] else [])
    + (if Truthy(Rel(rec.contact)) then [CONTACT_TASKS + contact] else [])
  }

  /** No key is listed twice, so each ZADD of the batch touches its own
      sorted set. */
  lemma SortedSetKeysDistinct(rec: TaskRecord)
    ensures var keys := SortedSetKeys(rec);
      forall i, j :: 0 <= i < j < |keys| ==> keys[i] != keys[j]
  {
    var user := ToText(Rel(rec.assignedTo));
    var category := ToText(Rel(rec.category));
    var contact := ToText(Rel(rec.contact));
    KeysDiffer(user, category, contact);
    var base := [TASKS, USER_TASKS + user];
    var catKeys := [CATEGORY_TASKS + category, UserTasksByCategory(user, category)];
    var contactKeys := [CONTACT_TASKS + contact];
    var keys := SortedSetKeys(rec);
    if Truthy(Rel(rec.category)) && Truthy(Rel(rec.contact)) {
      assert keys == base + catKeys + contactKeys;
      assert keys == [TASKS, USER_TASKS + user, CATEGORY_TASKS + category, UserTasksByCategory(user, category), CONTACT_TASKS + contact];
    } else if Truthy(Rel(rec.category)) {
      assert keys == base + catKeys + [];
      assert keys == [TASKS, USER_TASKS + user, CATEGORY_TASKS + category, UserTasksByCategory(user, category)];
    } else if Truthy(Rel(rec.contact)) {
      assert keys == base + [] + contactKeys;
      assert keys == [TASKS, USER_TASKS + user, CONTACT_TASKS + contact];
    } else {
      assert keys == base + [] + [];
      assert keys == [TASKS, USER_TASKS + user];
    }
  }

  /** The five kinds of index key never coincide. */
  lemma KeysDiffer(user: string, category: string, contact: string)
    ensures TASKS != USER_TASKS + user && TASKS != CATEGORY_TASKS + category
    ensures TASKS != UserTasksByCategory(user, category) && TASKS != CONTACT_TASKS + contact
    ensures USER_TASKS + user != CATEGORY_TASKS + category
    ensures USER_TASKS + user != UserTasksByCategory(user, category)
    ensures USER_TASKS + user != CONTACT_TASKS + contact
    ensures CATEGORY_TASKS + category != UserTasksByCategory(user, category)
    ensures CATEGORY_TASKS + category != CONTACT_TASKS + contact
    ensures UserTasksByCategory(user, category) != CONTACT_TASKS + contact
  {
    var userKey := USER_TASKS + user;
    var catKey := CATEGORY_TASKS + category;
    var userCatKey := UserTasksByCategory(user, category);
    var contactKey := CONTACT_TASKS + contact;
    assert TASKS[6] == 'c' && TASKS[7] == 'r' && |TASKS| == 10;
    assert userKey[6] == 'u' && userCatKey[6] == 'u' && |userCatKey| > |userKey|;
    assert catKey[6] == 'c' && catKey[7] == 'a';
    assert contactKey[6] == 'c' && contactKey[7] == 'o';
  }

  /** The two agree whenever the contact is not an object. */
  lemma SortedSetKeysAgree(rec: TaskRecord)
    requires !rec.contact.Record?
    ensures SortedSetKeysAsWritten(rec) == SortedSetKeys(rec)
  {
  }

  /** An object standing for contact 3: its `id` renders as `3`. Its own
      `String()` text may be anything: `[object Object]` for a plain object,
      the name for a contact from `asContact`. */
  predicate ContactThree(o: JsValue) {
    o.Record? && Truthy(o.id) && ToText(o.id) == "3"
  }

  /** The record of the counterexample: a task assigned to user 7 whose
      contact field holds the object `o`. */
  function ObjectContactRecord(id: nat, o: JsValue): TaskRecord {
    TaskRecord(id, "Call client", "", 0, "false", Null, Num(7), o, None, Undefined)
  }

  /** A task whose contact field holds an object for contact 3 is indexed
      under `tasks:contact:#` followed by the object's `String()` text, and so
      under `tasks:contact:#3` only when that text is `3`; the corrected keys
      always hold `tasks:contact:#3`. */
  lemma SortedSetKeysAsWrittenObjectContact(id: nat, o: JsValue)
    requires ContactThree(o)
    ensures CONTACT_TASKS + o.text in SortedSetKeysAsWritten(ObjectContactRecord(id, o))
    ensures CONTACT_TASKS + "3" in SortedSetKeysAsWritten(ObjectContactRecord(id, o)) <==> o.text == "3"
    ensures CONTACT_TASKS + "3" in SortedSetKeys(ObjectContactRecord(id, o))
  {
    var rec := ObjectContactRecord(id, o);
    assert ToText(Rel(rec.contact)) == "3" && ToText(Rel(rec.assignedTo)) == "7";
    var w := SortedSetKeysAsWritten(rec);
    assert w == [TASKS, USER_TASKS + "7", CONTACT_TASKS + o.text];
    assert |CONTACT_TASKS + "3"| == 16;
    assert |TASKS| == 10 && |USER_TASKS + "7"| == 13;
    if CONTACT_TASKS + "3" == CONTACT_TASKS + o.text {
      assert (CONTACT_TASKS + "3")[|CONTACT_TASKS|..] == "3";
      assert (CONTACT_TASKS + o.text)[|CONTACT_TASKS|..] == o.text;
    }
  }

  /** sortedSetScore: util.timestamp of the flattened due, a number. */
  function SortedSetScore(rec: TaskRecord): (score: int)
    ensures score == rec.due
  {
    Timestamp(Num(rec.due)).n
  }

  // ---------------------------------------------------------------- Store

  /** The task record stored under `task:#<id>`, if any. */
  function TaskAt(s: Kv.Store, id: string): Option<TaskRecord> {
    match Kv.HGetAll(s, TASK + id)
    case Some(TaskHash(t)) => Some(t)
    case _ => None
  }

  /** addToSortedSets: one ZADD per key, all with the same score and member. */
  function AddToSortedSets(keys: seq<string>, score: int, member: string): (ops: seq<Kv.Op>)
    ensures |ops| == |keys|
    ensures forall i :: 0 <= i < |keys| ==> ops[i] == Kv.ZAddOp(keys[i], score, member)
  {
    seq(|keys|, i requires 0 <= i < |keys| => Kv.ZAddOp(keys[i], score, member))
  }

  /** One sorted set after ZADD of `member` with `score`: the member once,
      with that score, besides the earlier entries of other members. */
  ghost predicate KeyAdded(before: seq<Kv.Entry>, after: seq<Kv.Entry>, score: int, member: string) {
    forall x :: x in after <==> (x in before && x.member != member) || x == Kv.Entry(member, score)
  }

  /** A second ZADD of the same member and score changes nothing more. */
  lemma KeyAddedTwice(a: seq<Kv.Entry>, b: seq<Kv.Entry>, c: seq<Kv.Entry>, score: int, member: string)
    requires KeyAdded(a, b, score, member) && KeyAdded(b, c, score, member)
    ensures KeyAdded(a, c, score, member)
  {
  }

  /** After a ZADD batch of `member` with `score` over `keys`: every key of
      the batch obeys KeyAdded, every other key is as before. */
  ghost predicate ZSetsAdded(s: Kv.Store, r: Kv.Store, keys: seq<string>, score: int, member: string) {
    && (forall k :: k !in keys ==> Kv.ZSetAt(r, k) == Kv.ZSetAt(s, k))
    && (forall k :: k in keys ==> KeyAdded(Kv.ZSetAt(s, k), Kv.ZSetAt(r, k), score, member))
  }

  /** The law only looks at the sorted sets of the store it starts from. */
  lemma ZSetsAddedSameZSets(s: Kv.Store, s': Kv.Store, r: Kv.Store, keys: seq<string>, score: int, member: string)
    requires s.zsets == s'.zsets
    requires ZSetsAdded(s', r, keys, score, member)
    ensures ZSetsAdded(s, r, keys, score, member)
  {
    assert forall k :: Kv.ZSetAt(s, k) == Kv.ZSetAt(s', k);
  }

  /** One ZADD in front of a batch that obeys the law gives a longer batch
      that obeys it. */
  lemma ZSetsAddedStep(s: Kv.Store, s1: Kv.Store, r: Kv.Store, keys: seq<string>, score: int, member: string)
    requires |keys| > 0
    requires s1 == s.(zsets := s.zsets[keys[0] := Kv.ZAdd(Kv.ZSetAt(s, keys[0]), member, score)])
    requires ZSetsAdded(s1, r, keys[1..], score, member)
    ensures ZSetsAdded(s, r, keys, score, member)
  {
    assert keys == [keys[0]] + keys[1..];
    assert Kv.ZSetAt(s1, keys[0]) == Kv.ZAdd(Kv.ZSetAt(s, keys[0]), member, score);
    forall k | k !in keys
      ensures Kv.ZSetAt(r, k) == Kv.ZSetAt(s, k)
    {
      assert k !in keys[1..] && k != keys[0];
    }
    forall k | k in keys
      ensures KeyAdded(Kv.ZSetAt(s, k), Kv.ZSetAt(r, k), score, member)
    {
      if k == keys[0] {
        assert KeyAdded(Kv.ZSetAt(s, k), Kv.ZSetAt(s1, k), score, member);
        if k in keys[1..] {
          KeyAddedTwice(Kv.ZSetAt(s, k), Kv.ZSetAt(s1, k), Kv.ZSetAt(r, k), score, member);
        } else {
          assert Kv.ZSetAt(r, k) == Kv.ZSetAt(s1, k);
        }
      } else {
        assert k in keys[1..];
        assert Kv.ZSetAt(s1, k) == Kv.ZSetAt(s, k);
      }
    }
  }

  /** Applying the ZADD batch obeys the law and touches nothing but sorted
      sets. */
  lemma {:induction false} ExecAddToSortedSets(s: Kv.Store, keys: seq<string>, score: int, member: string)
    ensures Kv.Exec(s, AddToSortedSets(keys, score, member)).(zsets := s.zsets) == s
    ensures ZSetsAdded(s, Kv.Exec(s, AddToSortedSets(keys, score, member)), keys, score, member)
    decreases |keys|
  {
    var ops := AddToSortedSets(keys, score, member);
    if |keys| > 0 {
      var s1 := Kv.ApplyOp(s, ops[0]);
      assert ops[1..] == AddToSortedSets(keys[1..], score, member);
      assert Kv.Exec(s, ops) == Kv.Exec(s1, ops[1..]);
      ExecAddToSortedSets(s1, keys[1..], score, member);
      ZSetsAddedStep(s, s1, Kv.Exec(s, ops), keys, score, member);
    } else {
      assert ops == [];
    }
  }

  /** The MULTI batch `store` queues, for the index keys it is given. */
  function StoreOps(rec: TaskRecord, keys: seq<string>): seq<Kv.Op> {
    var idText := Text.NatText(rec.id);
    [Kv.HMSet(TASK + idText, TaskHash(rec))]
    + AddToSortedSets(keys, SortedSetScore(rec), idText)
  }

  /** The batch of `store` is the HMSET followed by the ZADD batch. */
  lemma ExecStoreOpsSplit(s1: Kv.Store, rec: TaskRecord, keys: seq<string>)
    ensures var idText := Text.NatText(rec.id);
      Kv.Exec(s1, StoreOps(rec, keys))
      == Kv.Exec(s1.(hashes := s1.hashes[TASK + idText := TaskHash(rec)]),
                 AddToSortedSets(keys, SortedSetScore(rec), idText))
  {
    var idText := Text.NatText(rec.id);
    var hm := [Kv.HMSet(TASK + idText, TaskHash(rec))];
    var adds := AddToSortedSets(keys, SortedSetScore(rec), idText);
    Kv.ExecAppend(s1, hm, adds);
    assert hm[1..] == [];
  }

  /** The batch of `store` writes the record's hash, adds the id, scored by
      the due instant, to exactly the given sorted sets, and leaves every
      other value alone. */
  lemma ExecStoreOps(s1: Kv.Store, rec: TaskRecord, keys: seq<string>)
    ensures Kv.Exec(s1, StoreOps(rec, keys)).(zsets := s1.zsets)
      == s1.(hashes := s1.hashes[TASK + Text.NatText(rec.id) := TaskHash(rec)])
    ensures ZSetsAdded(s1, Kv.Exec(s1, StoreOps(rec, keys)), keys, rec.due, Text.NatText(rec.id))
  {
    var idText := Text.NatText(rec.id);
    var s2 := s1.(hashes := s1.hashes[TASK + idText := TaskHash(rec)]);
    ExecStoreOpsSplit(s1, rec, keys);
    ExecAddToSortedSets(s2, keys, SortedSetScore(rec), idText);
    ZSetsAddedSameZSets(s1, s2, Kv.Exec(s1, StoreOps(rec, keys)), keys, rec.due, idText);
  }

  /** store: allocates the next id and, in one batch, writes the flat record
      and adds the id, scored by its due instant, to exactly the sorted sets
      of sortedSetKeys (with the contact key built from the normalised id).
      The result is the flat record. */
  function Store(s: Kv.Store, t: TaskInput): (r: (Kv.Store, TaskRecord))
    ensures r.1.id == Kv.Counter(s, NEXT_ID) + 1 && Kv.Counter(r.0, NEXT_ID) == r.1.id
    ensures forall k :: k != NEXT_ID ==> Kv.Counter(r.0, k) == Kv.Counter(s, k)
    ensures r.1 == ToRedis(t, r.1.id)
    ensures r.0.hashes == s.hashes[TASK + Text.NatText(r.1.id) := TaskHash(r.1)]
    ensures ZSetsAdded(s, r.0, SortedSetKeys(r.1), r.1.due, Text.NatText(r.1.id))
    ensures r.0.strings == s.strings && r.0.lists == s.lists && r.0.sets == s.sets
    ensures Kv.Wf(s) ==> Kv.Wf(r.0)
  {
    var (s1, id) := Kv.Incr(s, NEXT_ID);
    var rec := ToRedis(t, id);
    ExecStoreOps(s1, rec, SortedSetKeys(rec));
    ZSetsAddedSameZSets(s, s1, Kv.Exec(s1, StoreOps(rec, SortedSetKeys(rec))), SortedSetKeys(rec), rec.due, Text.NatText(id));
    (Kv.Exec(s1, StoreOps(rec, SortedSetKeys(rec))), rec)
  }

  /** store as written: the same batch over the keys of sortedSetKeys as
      written, whose contact key is built from the raw contact field. */
  function StoreAsWritten(s: Kv.Store, t: TaskInput): (r: (Kv.Store, TaskRecord))
    ensures r.1.id == Kv.Counter(s, NEXT_ID) + 1 && Kv.Counter(r.0, NEXT_ID) == r.1.id
    ensures r.1 == ToRedis(t, r.1.id)
    ensures r.0.hashes == s.hashes[TASK + Text.NatText(r.1.id) := TaskHash(r.1)]
    ensures ZSetsAdded(s, r.0, SortedSetKeysAsWritten(r.1), r.1.due, Text.NatText(r.1.id))
    ensures r.0.strings == s.strings && r.0.lists == s.lists && r.0.sets == s.sets
  {
    var (s1, id) := Kv.Incr(s, NEXT_ID);
    var rec := ToRedis(t, id);
    var keys := SortedSetKeysAsWritten(rec);
    ExecStoreOps(s1, rec, keys);
    ZSetsAddedSameZSets(s, s1, Kv.Exec(s1, StoreOps(rec, keys)), keys, rec.due, Text.NatText(id));
    (Kv.Exec(s1, StoreOps(rec, keys)), rec)
  }

  /** For every task whose contact is not an object, which is every task
      the routes store, the store as written and the modelled store
      leave the same database and return the same record. */
  lemma StoreAsWrittenAgrees(s: Kv.Store, t: TaskInput)
    requires !t.contact.Record?
    ensures StoreAsWritten(s, t) == Store(s, t)
  {
    var (s1, id) := Kv.Incr(s, NEXT_ID);
    SortedSetKeysAgree(ToRedis(t, id));
  }

  /** The task of the counterexample, handed over with the object `o` in
      its contact field. */
  function ObjectContactTask(o: JsValue): TaskInput {
    TaskInput("Call client", "", 0, None, Null, Num(7), o)
  }

  /** Both stores flatten that task to the counterexample's record. */
  lemma ObjectContactStored(s: Kv.Store, o: JsValue)
    ensures StoreAsWritten(s, ObjectContactTask(o)).1 == ObjectContactRecord(StoreAsWritten(s, ObjectContactTask(o)).1.id, o)
    ensures Store(s, ObjectContactTask(o)).1 == ObjectContactRecord(Store(s, ObjectContactTask(o)).1.id, o)
  {
  }

  /** A read of a key the batch wrote lists the new id. */
  lemma AddedKeyListsId(s: Kv.Store, r: Kv.Store, keys: seq<string>, score: int, member: string, key: string)
    requires ZSetsAdded(s, r, keys, score, member) && key in keys
    ensures member in IndexIds(r, key, Whole)
  {
    assert Kv.Entry(member, score) in Kv.ZSetAt(r, key);
    var es := IndexEntries(r, key, Whole);
    assert Kv.Entry(member, score) in es;
    var i :| 0 <= i < |es| && es[i] == Kv.Entry(member, score);
    assert IndexIds(r, key, Whole)[i] == member;
  }

  /** A read of a key the batch did not write finds what it found before. */
  lemma OtherKeyUnchanged(s: Kv.Store, r: Kv.Store, keys: seq<string>, score: int, member: string, key: string)
    requires ZSetsAdded(s, r, keys, score, member) && key !in keys
    ensures IndexEntries(r, key, Whole) == IndexEntries(s, key, Whole)
  {
  }

  /** A filter on contact 3 reads the contact index of id 3. */
  lemma ContactThreeKey()
    ensures LookupKey(Filter(Null, Null, Num(3))) == CONTACT_TASKS + "3"
  {
  }

  /** The store as written loses a task whose contact is an object for
      contact 3 rendering as anything but `3`: on a database with no tasks
      for contact 3, querying by that contact's id still finds nothing after
      the task is stored. */
  lemma StoreAsWrittenMissesObjectContact(s: Kv.Store, o: JsValue)
    requires ContactThree(o) && o.text != "3"
    requires Kv.ZSetAt(s, CONTACT_TASKS + "3") == []
    ensures GetTasks(StoreAsWritten(s, ObjectContactTask(o)).0, Whole, Filter(Null, Null, Num(3))) == Ok([])
  {
    var r := StoreAsWritten(s, ObjectContactTask(o));
    var key := CONTACT_TASKS + "3";
    ContactThreeKey();
    ObjectContactStored(s, o);
    SortedSetKeysAsWrittenObjectContact(r.1.id, o);
    assert key !in SortedSetKeysAsWritten(r.1);
    OtherKeyUnchanged(s, r.0, SortedSetKeysAsWritten(r.1), r.1.due, Text.NatText(r.1.id), key);
    assert IndexEntries(s, key, Whole) == [];
  }

  /** Both shapes of object reach that case: a plain `{id: 3}` object, and
      contact 3 as `asContact` returns it whenever its name is not `3`. */
  lemma ObjectContactsMissed(c: Contacts.Contact)
    ensures ContactThree(Record(Num(3), PLAIN_OBJECT_TEXT)) && PLAIN_OBJECT_TEXT != "3"
    ensures c.id == 3 ==> ContactThree(Contacts.ContactValue(c))
    ensures Contacts.ContactValue(c).text == Contacts.ContactText(c)
  {
    assert |PLAIN_OBJECT_TEXT| == 15;
    if c.id == 3 {
      assert Text.NatText(3) == "3";
    }
  }

  /** The modelled store lists a stored task under every key it indexes it
      by. */
  lemma StoreListsUnderKeys(s: Kv.Store, t: TaskInput, key: string)
    requires key in SortedSetKeys(ToRedis(t, Kv.Counter(s, NEXT_ID) + 1))
    ensures Text.NatText(Store(s, t).1.id) in IndexIds(Store(s, t).0, key, Whole)
  {
    var r := Store(s, t);
    AddedKeyListsId(s, r.0, SortedSetKeys(r.1), r.1.due, Text.NatText(r.1.id), key);
  }

  /** The modelled store always lists the same task under contact 3,
      whatever the object renders as. */
  lemma StoreFindsObjectContact(s: Kv.Store, o: JsValue)
    requires ContactThree(o)
    ensures var r := Store(s, ObjectContactTask(o));
      Text.NatText(r.1.id) in IndexIds(r.0, LookupKey(Filter(Null, Null, Num(3))), Whole)
  {
    var rec := Store(s, ObjectContactTask(o)).1;
    ContactThreeKey();
    ObjectContactStored(s, o);
    SortedSetKeysAsWrittenObjectContact(rec.id, o);
    assert CONTACT_TASKS + "3" in SortedSetKeys(rec);
    StoreListsUnderKeys(s, ObjectContactTask(o), CONTACT_TASKS + "3");
  }

  /** After `store` the new record sits under its id and every other task
      record is unchanged. */
  lemma TaskAtAfterStore(s: Kv.Store, t: TaskInput, m: string)
    ensures var r := Store(s, t);
      TaskAt(r.0, m) == if m == Text.NatText(r.1.id) then Some(r.1) else TaskAt(s, m)
  {
    var r := Store(s, t);
    var idText := Text.NatText(r.1.id);
    if m != idText {
      Text.PrefixCancel(TASK, m, idText);
      assert Kv.HGetAll(r.0, TASK + m) == Kv.HGetAll(s, TASK + m);
    } else {
      assert Kv.HGetAll(r.0, TASK + m) == Some(TaskHash(r.1));
    }
  }

  // ------------------------------------------------------ Index invariant

  /** Every index entry names a stored task, carries its due instant as score
      and sits in one of that task's keys. */
  ghost predicate Sound(s: Kv.Store) {
    forall k, e | k in s.zsets && e in s.zsets[k] ::
      TaskAt(s, e.member).Some? && TaskAt(s, e.member).value.due == e.score &&
      k in SortedSetKeys(TaskAt(s, e.member).value)
  }

  /** Every stored task is in every one of its keys, scored by its due
      instant. */
  ghost predicate Complete(s: Kv.Store) {
    forall m, k | TaskAt(s, m).Some? && k in SortedSetKeys(TaskAt(s, m).value) ::
      Kv.Entry(m, TaskAt(s, m).value.due) in Kv.ZSetAt(s, k)
  }

  /** No task record exists yet for an id the counter has not handed out. */
  ghost predicate Fresh(s: Kv.Store) {
    forall n: nat | n > Kv.Counter(s, NEXT_ID) :: TaskAt(s, Text.NatText(n)).None?
  }

  /** The consistency the single-batch writes of `store` keep between the
      task records and the sorted sets. */
  ghost predicate Indexed(s: Kv.Store) {
    Kv.Wf(s) && Sound(s) && Complete(s) && Fresh(s)
  }

  lemma EmptyIndexed()
    ensures Indexed(Kv.EmptyStore)
  {
  }

  /** The id `store` allocates has no record and no index entry yet. */
  lemma StoredIdUnused(s: Kv.Store, t: TaskInput)
    requires Sound(s) && Fresh(s)
    ensures var idText := Text.NatText(Store(s, t).1.id);
      TaskAt(s, idText).None? && forall k, e | k in s.zsets && e in s.zsets[k] :: e.member != idText
  {
  }

  lemma StorePreservesSound(s: Kv.Store, t: TaskInput)
    requires Sound(s) && Fresh(s)
    ensures Sound(Store(s, t).0)
  {
    var r := Store(s, t);
    var idText := Text.NatText(r.1.id);
    StoredIdUnused(s, t);
    forall k, e | k in r.0.zsets && e in r.0.zsets[k]
      ensures TaskAt(r.0, e.member).Some? && TaskAt(r.0, e.member).value.due == e.score &&
              k in SortedSetKeys(TaskAt(r.0, e.member).value)
    {
      assert e in Kv.ZSetAt(r.0, k);
      TaskAtAfterStore(s, t, e.member);
      if e != Kv.Entry(idText, r.1.due) {
        assert e in Kv.ZSetAt(s, k);
        assert k in s.zsets;
      }
    }
  }

  lemma StorePreservesComplete(s: Kv.Store, t: TaskInput)
    requires Sound(s) && Complete(s) && Fresh(s)
    ensures Complete(Store(s, t).0)
  {
    var r := Store(s, t);
    var idText := Text.NatText(r.1.id);
    StoredIdUnused(s, t);
    forall m, k | TaskAt(r.0, m).Some? && k in SortedSetKeys(TaskAt(r.0, m).value)
      ensures Kv.Entry(m, TaskAt(r.0, m).value.due) in Kv.ZSetAt(r.0, k)
    {
      TaskAtAfterStore(s, t, m);
      if m != idText {
        var prior := TaskAt(s, m).value;
        assert Kv.Entry(m, prior.due) in Kv.ZSetAt(s, k);
        if k in SortedSetKeys(r.1) {
          assert Kv.Entry(m, prior.due).member != idText;
        } else {
          assert Kv.ZSetAt(r.0, k) == Kv.ZSetAt(s, k);
        }
      }
    }
  }

  lemma StorePreservesFresh(s: Kv.Store, t: TaskInput)
    requires Fresh(s)
    ensures Fresh(Store(s, t).0)
  {
    var r := Store(s, t);
    forall n: nat | n > Kv.Counter(r.0, NEXT_ID)
      ensures TaskAt(r.0, Text.NatText(n)).None?
    {
      if Text.NatText(n) == Text.NatText(r.1.id) {
        Text.NatTextInjective(n, r.1.id);
      }
      TaskAtAfterStore(s, t, Text.NatText(n));
    }
  }

  /** `store` keeps records and indexes consistent. */
  lemma StorePreservesIndexed(s: Kv.Store, t: TaskInput)
    requires Indexed(s)
    ensures Indexed(Store(s, t).0)
  {
    StorePreservesSound(s, t);
    StorePreservesComplete(s, t);
    StorePreservesFresh(s, t);
  }

  /** The invariant only looks at task records, sorted sets and the task
      counter: a write that leaves those alone keeps it. */
  lemma IndexedFrame(s: Kv.Store, r: Kv.Store)
    requires Indexed(s)
    requires r.zsets == s.zsets && Kv.Counter(r, NEXT_ID) == Kv.Counter(s, NEXT_ID)
    requires forall m :: TaskAt(r, m) == TaskAt(s, m)
    ensures Indexed(r)
  {
    assert forall k :: Kv.ZSetAt(r, k) == Kv.ZSetAt(s, k);
  }

  /** A hash written under a key of another entity, one that does not start
      like `task:#`, leaves every task record as it was. */
  lemma OtherHashKeepsTasks(s: Kv.Store, r: Kv.Store, key: string, h: Hash)
    requires r.hashes == s.hashes[key := h]
    requires |key| > 0 && key[0] != TASK[0]
    ensures forall m :: TaskAt(r, m) == TaskAt(s, m)
  {
    forall m
      ensures TaskAt(r, m) == TaskAt(s, m)
    {
      assert (TASK + m)[0] == TASK[0];
    }
  }

  /** Storing a category keeps the task index invariant. */
  lemma CategoryStoreKeepsIndexed(s: Kv.Store, name: string, lower: string -> string)
    requires Indexed(s)
    ensures Indexed(Categories.Store(s, name, lower).0)
  {
    var r := Categories.Store(s, name, lower);
    OtherHashKeepsTasks(s, r.0, Categories.CATEGORY + Text.NatText(r.1), CategoryHash(CategoryRecord(r.1, name)));
    IndexedFrame(s, r.0);
  }

  /** Storing a user keeps the task index invariant. */
  lemma UserStoreKeepsIndexed(s: Kv.Store, nu: Users.NewUser, random1: string, random2: string, salt: string,
                              hash: (string, string) -> string, lower: string -> string)
    requires Indexed(s)
    ensures Indexed(Users.Store(s, nu, random1, random2, salt, hash, lower).0)
  {
    var r := Users.Store(s, nu, random1, random2, salt, hash, lower);
    OtherHashKeepsTasks(s, r.0, Users.USER + Text.NatText(r.1.id), UserHash(r.1));
    IndexedFrame(s, r.0);
  }

  /** Storing a person keeps the task index invariant. */
  lemma PersonStoreKeepsIndexed(s: Kv.Store, person: Contacts.ContactInput)
    requires Indexed(s)
    ensures Indexed(Contacts.StorePerson(s, person).0)
  {
    var r := Contacts.StorePerson(s, person);
    OtherHashKeepsTasks(s, r.0, Contacts.CONTACT + Text.NatText(r.1.id),
      ContactHash(Contacts.PrepareForStorage(person, r.1.id, Contacts.TYPE_PERSON)));
    IndexedFrame(s, r.0);
  }

  /** Storing an organisation keeps the task index invariant. */
  lemma OrganisationStoreKeepsIndexed(s: Kv.Store, organisation: Contacts.ContactInput)
    requires Indexed(s)
    ensures Indexed(Contacts.StoreOrganisation(s, organisation).0)
  {
    var r := Contacts.StoreOrganisation(s, organisation);
    OtherHashKeepsTasks(s, r.0, Contacts.CONTACT + Text.NatText(r.1.id),
      ContactHash(Contacts.PrepareForStorage(organisation, r.1.id, Contacts.TYPE_ORGANISATION)));
    IndexedFrame(s, r.0);
  }

  // ---------------------------------------------------------------- Reads

  /** The filter options of get and getByDateRange; an option the caller
      leaves out is null. */
  datatype Filter = Filter(assignedTo: JsValue, category: JsValue, contact: JsValue)

  const NoFilter := Filter(Null, Null, Null)

  /** lookupKey: the one sorted set a filter reads, by the precedence
      contact, then category with user, then category, then user, then all
      tasks. */
  function LookupKey(f: Filter): (k: string)
    ensures Truthy(f.contact) ==> k == CONTACT_TASKS + ToText(f.contact)
    ensures !Truthy(f.contact) && Truthy(f.category) && Truthy(f.assignedTo) ==>
      k == UserTasksByCategory(ToText(f.assignedTo), ToText(f.category))
    ensures !Truthy(f.contact) && Truthy(f.category) && !Truthy(f.assignedTo) ==>
      k == CATEGORY_TASKS + ToText(f.category)
    ensures !Truthy(f.contact) && !Truthy(f.category) && Truthy(f.assignedTo) ==>
      k == USER_TASKS + ToText(f.assignedTo)
    ensures !Truthy(f.contact) && !Truthy(f.category) && !Truthy(f.assignedTo) ==> k == TASKS
  {
    if Truthy(f.contact) then CONTACT_TASKS + ToText(f.contact)
    else if Truthy(f.category) && Truthy(f.assignedTo) then UserTasksByCategory(ToText(f.assignedTo), ToText(f.category))
    else if Truthy(f.category) then CATEGORY_TASKS + ToText(f.category)
    else if Truthy(f.assignedTo) then USER_TASKS + ToText(f.assignedTo)
    else TASKS
  }

  /** A contact filter overrides the other two; without one, a category
      filter keeps the user filter only as a refinement. */
  lemma LookupKeyPrecedence(f: Filter)
    ensures Truthy(f.contact) ==> LookupKey(f) == LookupKey(Filter(Null, Null, f.contact))
    ensures !Truthy(f.contact) ==> LookupKey(f) == LookupKey(Filter(f.assignedTo, f.category, Null))
    ensures !Truthy(f.contact) && !Truthy(f.category) ==> LookupKey(f) == LookupKey(Filter(f.assignedTo, Null, Null))
  {
  }

  /** Every filter field that is set names the task's own (normalised)
      assignee, category or contact. */
  predicate Matches(f: Filter, rec: TaskRecord) {
    && (Truthy(f.contact) ==> Truthy(Rel(rec.contact)) && ToText(f.contact) == ToText(Rel(rec.contact)))
    && (Truthy(f.category) ==> Truthy(Rel(rec.category)) && ToText(f.category) == ToText(Rel(rec.category)))
    && (Truthy(f.assignedTo) ==> ToText(f.assignedTo) == ToText(Rel(rec.assignedTo)))
  }

  /** The key lookupKey picks for a matching filter is one the task was
      indexed under. */
  lemma LookupKeyFindsTask(f: Filter, rec: TaskRecord)
    requires Matches(f, rec)
    ensures LookupKey(f) in SortedSetKeys(rec)
  {
  }

  /** What get (ZRANGE 0 -1) and getByDateRange (ZRANGEBYSCORE) read. */
  datatype Window = Whole | Between(start: int, stop: int)

  predicate InWindow(w: Window, score: int) {
    w.Whole? || w.start <= score <= w.stop
  }

  /** The entries of the key that lie in the window, in set order. */
  function IndexEntries(s: Kv.Store, key: string, w: Window): (r: seq<Kv.Entry>)
    ensures forall x :: x in r <==> x in Kv.ZSetAt(s, key) && InWindow(w, x.score)
    ensures Kv.ZValid(Kv.ZSetAt(s, key)) ==> Kv.ZValid(r)
  {
    match w
    case Whole => Kv.RangeByRank(Kv.ZSetAt(s, key), 0, -1)
    case Between(start, stop) => Kv.ZRangeByScore(Kv.ZSetAt(s, key), start, stop)
  }

  function IndexIds(s: Kv.Store, key: string, w: Window): seq<string> {
    Kv.Members(IndexEntries(s, key, w))
  }

  /** A relation `fetchRelated` looks up only when the task's field is
      truthy: otherwise the raw value stays. */
  datatype Related<T> = Raw(value: JsValue) | Fetched(found: Option<T>)

  /** A task with its relations resolved in place of their ids. */
  datatype ResolvedTask = ResolvedTask(
    task: Task,
    assignedTo: Option<UserRecord>,
    category: Related<CategoryRecord>,
    contact: Related<Contacts.Contact>,
    completedBy: Related<UserRecord>)

  /** fetchRelated: the assignee is always looked up; category, contact and
      completedBy only when set. A missing entity resolves to null rather
      than failing. */
  function FetchRelated(s: Kv.Store, t: Task): (r: ResolvedTask)
    ensures r.task == t
    ensures r.assignedTo == Users.ById(s, ToText(t.assignedTo))
    ensures r.category.Fetched? <==> Truthy(t.category)
    ensures r.category.Raw? ==> r.category.value == t.category
    ensures r.category.Fetched? ==> r.category.found == Categories.ById(s, ToText(t.category))
    ensures r.contact.Fetched? <==> Truthy(t.contact)
    ensures r.contact.Raw? ==> r.contact.value == t.contact
    ensures r.contact.Fetched? ==>
      Contacts.ById(s, ToText(t.contact), Contacts.NotRelated) == Ok(r.contact.found)
    ensures r.completedBy.Fetched? <==> Truthy(t.completedBy)
    ensures r.completedBy.Raw? ==> r.completedBy.value == t.completedBy
    ensures r.completedBy.Fetched? ==> r.completedBy.found == Users.ById(s, ToText(t.completedBy))
  {
    ResolvedTask(
      t,
      Users.ById(s, ToText(t.assignedTo)),
      if Truthy(t.category) then Fetched(Categories.ById(s, ToText(t.category))) else Raw(t.category),
      if Truthy(t.contact) then Fetched(Contacts.ById(s, ToText(t.contact), Contacts.NotRelated).value) else Raw(t.contact),
      if Truthy(t.completedBy) then Fetched(Users.ById(s, ToText(t.completedBy))) else Raw(t.completedBy))
  }

  /** byId: null when there is no record, otherwise the decoded task with its
      relations resolved. */
  function ById(s: Kv.Store, id: string): (r: Option<ResolvedTask>)
    ensures r.None? <==> TaskAt(s, id).None?
    ensures r.Some? ==> r.value.task == FromRedis(TaskAt(s, id).value)
    ensures r.Some? ==> r.value == FetchRelated(s, FromRedis(TaskAt(s, id).value))
  {
    match TaskAt(s, id)
    case None => None
    case Some(rec) => Some(FetchRelated(s, FromRedis(rec)))
  }

  /** The records of the ids, fetched in one batch and resolved. A missing
      record makes `fromRedis(null)` throw, which is the error here. */
  function FetchTasks(s: Kv.Store, ids: seq<string>): (r: Result<seq<ResolvedTask>>)
    ensures r.Ok? <==> forall i :: 0 <= i < |ids| ==> TaskAt(s, ids[i]).Some?
    ensures r.Ok? ==> |r.value| == |ids|
    ensures r.Ok? ==>
      forall i :: 0 <= i < |ids| ==> r.value[i] == FetchRelated(s, FromRedis(TaskAt(s, ids[i]).value))
    decreases |ids|
  {
    if |ids| == 0 then Ok([])
    else match TaskAt(s, ids[0])
      case None => Err("TypeError: Cannot read property 'due' of null")
      case Some(rec) =>
        match FetchTasks(s, ids[1..])
        case Err(e) =>
          assert exists i :: 1 <= i < |ids| && TaskAt(s, ids[i]).None? by {
            var j :| 0 <= j < |ids[1..]| && TaskAt(s, ids[1..][j]).None?;
            assert ids[1..][j] == ids[j + 1];
          }
          Err(e)
        case Ok(rest) =>
          assert forall i :: 1 <= i < |ids| ==> ids[i] == ids[1..][i - 1];
          Ok([FetchRelated(s, FromRedis(rec))] + rest)
  }

  /** getTasks: the ids of the looked-up key in the window, their tasks
      fetched in that order. */
  function GetTasks(s: Kv.Store, w: Window, f: Filter): Result<seq<ResolvedTask>> {
    FetchTasks(s, IndexIds(s, LookupKey(f), w))
  }

  /** get: every task of the key, in score order. */
  function Get(s: Kv.Store, f: Filter): Result<seq<ResolvedTask>> {
    GetTasks(s, Whole, f)
  }

  /** getByDateRange: the tasks of the key due in [start, stop]. */
  function GetByDateRange(s: Kv.Store, start: int, stop: int, f: Filter): Result<seq<ResolvedTask>> {
    GetTasks(s, Between(start, stop), f)
  }

  /** On a sound store every entry a read finds names a stored task whose
      due instant is the entry's score. */
  lemma IndexEntriesRecorded(s: Kv.Store, key: string, w: Window)
    requires Sound(s)
    ensures forall x :: x in IndexEntries(s, key, w) ==>
      TaskAt(s, x.member).Some? && TaskAt(s, x.member).value.due == x.score
  {
    forall x | x in IndexEntries(s, key, w)
      ensures TaskAt(s, x.member).Some? && TaskAt(s, x.member).value.due == x.score
    {
      assert x in Kv.ZSetAt(s, key);
      assert key in s.zsets;
    }
  }

  /** On a consistent store every read succeeds, returns only tasks due in
      the window, and returns them in ascending due order. */
  lemma GetTasksOrdered(s: Kv.Store, w: Window, f: Filter)
    requires Indexed(s)
    ensures var r := GetTasks(s, w, f);
      && r.Ok?
      && (forall i :: 0 <= i < |r.value| ==> InWindow(w, r.value[i].task.due))
      && (forall i, j :: 0 <= i < j < |r.value| ==> r.value[i].task.due <= r.value[j].task.due)
  {
    var key := LookupKey(f);
    var es := IndexEntries(s, key, w);
    var ids := IndexIds(s, key, w);
    assert Kv.ZValid(Kv.ZSetAt(s, key));
    Kv.ZValidAscending(es);
    IndexEntriesRecorded(s, key, w);
    assert |ids| == |es|;
    forall i | 0 <= i < |ids|
      ensures TaskAt(s, ids[i]).Some? && TaskAt(s, ids[i]).value.due == es[i].score
    {
      assert ids[i] == es[i].member && es[i] in es;
    }
    var r := FetchTasks(s, ids);
    assert r.Ok?;
    forall i | 0 <= i < |ids|
      ensures r.value[i].task.due == es[i].score && InWindow(w, es[i].score)
    {
      assert es[i] in es;
    }
  }

  /** On a consistent store, a stored task that matches the filter and is due
      in the window is read exactly once. */
  lemma GetTasksComplete(s: Kv.Store, w: Window, f: Filter, id: string)
    requires Indexed(s)
    requires TaskAt(s, id).Some? && Matches(f, TaskAt(s, id).value) && InWindow(w, TaskAt(s, id).value.due)
    ensures multiset(IndexIds(s, LookupKey(f), w))[id] == 1
  {
    var rec := TaskAt(s, id).value;
    var key := LookupKey(f);
    LookupKeyFindsTask(f, rec);
    var e := Kv.Entry(id, rec.due);
    assert e in Kv.ZSetAt(s, key);
    assert Kv.ZValid(Kv.ZSetAt(s, key));
    Kv.MembersOnce(IndexEntries(s, key, w), e);
  }

  /** On a consistent store a read returns an id exactly when it names a
      stored task filed under the looked-up key and due in the window. */
  lemma GetTasksExactly(s: Kv.Store, w: Window, f: Filter, id: string)
    requires Indexed(s)
    ensures id in IndexIds(s, LookupKey(f), w) <==>
      TaskAt(s, id).Some? && LookupKey(f) in SortedSetKeys(TaskAt(s, id).value) &&
      InWindow(w, TaskAt(s, id).value.due)
  {
    var key := LookupKey(f);
    if id in IndexIds(s, key, w) {
      ReadIdStored(s, key, w, id);
    }
    if TaskAt(s, id).Some? && key in SortedSetKeys(TaskAt(s, id).value) && InWindow(w, TaskAt(s, id).value.due) {
      StoredIdRead(s, key, w, id);
    }
  }

  /** On a sound store an id a read lists names a task filed under the key
      and due in the window. */
  lemma ReadIdStored(s: Kv.Store, key: string, w: Window, id: string)
    requires Sound(s) && id in IndexIds(s, key, w)
    ensures TaskAt(s, id).Some? && key in SortedSetKeys(TaskAt(s, id).value) && InWindow(w, TaskAt(s, id).value.due)
  {
    var es := IndexEntries(s, key, w);
    var i :| 0 <= i < |es| && es[i].member == id;
    assert es[i] in Kv.ZSetAt(s, key);
    assert key in s.zsets;
  }

  /** On a complete store a task filed under the key and due in the window
      is listed by the read. */
  lemma StoredIdRead(s: Kv.Store, key: string, w: Window, id: string)
    requires Complete(s)
    requires TaskAt(s, id).Some? && key in SortedSetKeys(TaskAt(s, id).value) && InWindow(w, TaskAt(s, id).value.due)
    ensures id in IndexIds(s, key, w)
  {
    var es := IndexEntries(s, key, w);
    var e := Kv.Entry(id, TaskAt(s, id).value.due);
    assert e in Kv.ZSetAt(s, key);
    var i :| 0 <= i < |es| && es[i] == e;
    assert IndexIds(s, key, w)[i] == id;
  }

  /** After `store`, byId returns the decoded task. */
  lemma StoreThenById(s: Kv.Store, t: TaskInput)
    ensures var r := Store(s, t);
      ById(r.0, Text.NatText(r.1.id)) == Some(FetchRelated(r.0, FromRedis(ToRedis(t, r.1.id))))
  {
    TaskAtAfterStore(s, t, Text.NatText(Store(s, t).1.id));
  }

  /** After `store` on a consistent store, every filter the task matches and
      every window containing its due instant read it exactly once, and the
      read succeeds. */
  lemma StoreThenGet(s: Kv.Store, t: TaskInput, f: Filter, w: Window)
    requires Indexed(s)
    requires Matches(f, Store(s, t).1) && InWindow(w, Store(s, t).1.due)
    ensures var r := Store(s, t);
      && multiset(IndexIds(r.0, LookupKey(f), w))[Text.NatText(r.1.id)] == 1
      && GetTasks(r.0, w, f).Ok?
  {
    var r := Store(s, t);
    StorePreservesIndexed(s, t);
    TaskAtAfterStore(s, t, Text.NatText(r.1.id));
    GetTasksComplete(r.0, w, f, Text.NatText(r.1.id));
    GetTasksOrdered(r.0, w, f);
  }
}

=== FILE: text.dfy ===
/**
 * String machinery shared by the storage modules: the byte order Redis uses
 * to compare strings, decimal rendering of numbers, and
 * JavaScript's `Array.prototype.join` and `String.prototype.split` on a
 * single character.
 */
module Text {

  // ------------------------------------------------------ Lexicographic order

  /** Strict lexicographic order by character code: the order of members with
      equal scores in a Redis sorted set and of `SORT ... ALPHA`. */
  predicate Less(a: string, b: string)
    decreases |a|
  {
    |b| > 0 && (|a| == 0 || a[0] < b[0] || (a[0] == b[0] && Less(a[1..], b[1..])))
  }

  /** The reflexive closure of `Less`. */
  predicate Le(a: string, b: string) {
    a == b || Less(a, b)
  }

  lemma {:induction false} LessIrreflexive(a: string)
    ensures !Less(a, a)
    decreases |a|
  {
    if |a| > 0 {
      LessIrreflexive(a[1..]);
    }
  }

  lemma {:induction false} LessTransitive(a: string, b: string, c: string)
    requires Less(a, b) && Less(b, c)
    ensures Less(a, c)
    decreases |a|
  {
    if |a| > 0 && a[0] == b[0] && b[0] == c[0] {
      LessTransitive(a[1..], b[1..], c[1..]);
    }
  }

  lemma {:induction false} LessTotal(a: string, b: string)
    ensures a == b || Less(a, b) || Less(b, a)
    decreases |a|
  {
    if |a| > 0 && |b| > 0 && a[0] == b[0] {
      LessTotal(a[1..], b[1..]);
      if a[1..] == b[1..] {
        assert a == [a[0]] + a[1..] && b == [b[0]] + b[1..];
      }
    }
  }

  lemma LessAsymmetric(a: string, b: string)
    requires Less(a, b)
    ensures !Less(b, a) && a != b
  {
    LessIrreflexive(a);
    if Less(b, a) {
      LessTransitive(a, b, a);
    }
  }

  /** `Le` is a total order. */
  lemma LeTotal(a: string, b: string)
    ensures Le(a, b) || Le(b, a)
  {
    LessTotal(a, b);
  }

  lemma LeTransitive(a: string, b: string, c: string)
    requires Le(a, b) && Le(b, c)
    ensures Le(a, c)
  {
    if a != b && b != c {
      LessTransitive(a, b, c);
    }
  }

  /** Keys that share a prefix are equal only when their rests are. */
  lemma PrefixCancel(p: string, a: string, b: string)
    ensures p + a == p + b <==> a == b
  {
    assert a == (p + a)[|p|..];
    assert b == (p + b)[|p|..];
  }

  // -------------------------------------------------------- Decimal numbers

  /** The decimal digit character for `d`. */
  function Digit(d: nat): (c: char)
    requires d < 10
    ensures '0' <= c <= '9'
  {
    "0123456789"[d]
  }

  /** The decimal rendering of a natural number, as `String(n)` gives it. */
  function NatText(n: nat): (r: string)
    ensures |r| > 0
    ensures forall i :: 0 <= i < |r| ==> '0' <= r[i] <= '9'
    decreases n
  {
    if n < 10 then [Digit(n)] else NatText(n / 10) + [Digit(n % 10)]
  }

  /** Distinct numbers have distinct decimal renderings. */
  lemma {:induction false} NatTextInjective(a: nat, b: nat)
    requires NatText(a) == NatText(b)
    ensures a == b
    decreases a
  {
    if a >= 10 && b >= 10 {
      var ta, tb := NatText(a / 10), NatText(b / 10);
      assert ta + [Digit(a % 10)] == tb + [Digit(b % 10)];
      assert |ta| == |tb|;
      assert Digit(a % 10) == (ta + [Digit(a % 10)])[|ta|] == (tb + [Digit(b % 10)])[|tb|] == Digit(b % 10);
      assert ta == (ta + [Digit(a % 10)])[..|ta|] == (tb + [Digit(b % 10)])[..|tb|] == tb;
      NatTextInjective(a / 10, b / 10);
    }
  }

  /** The decimal rendering of an integer, with a leading `-` when negative. */
  function IntText(n: int): string {
    if n < 0 then "-" + NatText(-n) else NatText(n)
  }

  // ------------------------------------------------------- Join and split

  /** `parts.join(sep)`. */
  function Join(parts: seq<string>, sep: string): string
    decreases |parts|
  {
    if |parts| == 0 then ""
    else if |parts| == 1 then parts[0]
    else parts[0] + sep + Join(parts[1..], sep)
  }

  lemma JoinPrependHead(x: char, parts: seq<string>, sep: string)
    requires |parts| > 0
    ensures Join([[x] + parts[0]] + parts[1..], sep) == [x] + Join(parts, sep)
  {
    var ps := [[x] + parts[0]] + parts[1..];
    assert ps[1..] == parts[1..];
  }

  /** `s.split(c)` for a single separator character: the pieces between the
      occurrences of `c`, which joined back with `c` give `s`. */
  function SplitOn(s: string, c: char): (r: seq<string>)
    ensures |r| > 0
    ensures forall i :: 0 <= i < |r| ==> c !in r[i]
    ensures Join(r, [c]) == s
    decreases |s|
  {
    if |s| == 0 then [""]
    else
      var rest := SplitOn(s[1..], c);
      if s[0] == c then
        assert [c] + Join(rest, [c]) == s;
        [""] + rest
      else
        JoinPrependHead(s[0], rest, [c]);
        assert s == [s[0]] + s[1..];
        [[s[0]] + rest[0]] + rest[1..]
  }

  lemma {:induction false} SplitOnFree(p: string, c: char)
    requires c !in p
    ensures SplitOn(p, c) == [p]
    decreases |p|
  {
    if |p| > 0 {
      SplitOnFree(p[1..], c);
      assert p == [p[0]] + p[1..];
    }
  }

  lemma {:induction false} SplitOnCons(p: string, c: char, rest: string)
    requires c !in p
    ensures SplitOn(p + [c] + rest, c) == [p] + SplitOn(rest, c)
    decreases |p|
  {
    var s := p + [c] + rest;
    if |p| == 0 {
      assert s[1..] == rest;
    } else {
      assert s[1..] == p[1..] + [c] + rest;
      SplitOnCons(p[1..], c, rest);
      assert p == [p[0]] + p[1..];
    }
  }

  /** Joining with a character no part contains and splitting on it again
      gives the parts back. */
  lemma {:induction false} SplitJoin(parts: seq<string>, c: char)
    requires |parts| > 0
    requires forall i :: 0 <= i < |parts| ==> c !in parts[i]
    ensures SplitOn(Join(parts, [c]), c) == parts
    decreases |parts|
  {
    if |parts| == 1 {
      SplitOnFree(parts[0], c);
    } else {
      SplitJoin(parts[1..], c);
      SplitOnCons(parts[0], c, Join(parts[1..], [c]));
      assert parts == [parts[0]] + parts[1..];
    }
  }

  /** The parts that are non-empty strings (`parts.filter(truthy)`), in order. */
  function NonEmptyParts(parts: seq<string>): (r: seq<string>)
    ensures forall i :: 0 <= i < |r| ==> r[i] != ""
    ensures forall x :: x in r <==> x in parts && x != ""
    ensures |r| <= |parts|
    decreases |parts|
  {
    if |parts| == 0 then []
    else if parts[0] == "" then NonEmptyParts(parts[1..])
    else [parts[0]] + NonEmptyParts(parts[1..])
  }

  /** A list without empty strings is kept whole. */
  lemma {:induction false} NonEmptyPartsAllFull(parts: seq<string>)
    requires forall i :: 0 <= i < |parts| ==> parts[i] != ""
    ensures NonEmptyParts(parts) == parts
    decreases |parts|
  {
    if |parts| > 0 {
      NonEmptyPartsAllFull(parts[1..]);
    }
  }

  /** Filtering keeps order: the non-empty parts of two lists joined are
      those of the first followed by those of the second. */
  lemma {:induction false} NonEmptyPartsAppend(a: seq<string>, b: seq<string>)
    ensures NonEmptyParts(a + b) == NonEmptyParts(a) + NonEmptyParts(b)
    decreases |a|
  {
    if |a| == 0 {
      assert a + b == b;
    } else {
      assert (a + b)[0] == a[0] && (a + b)[1..] == a[1..] + b;
      NonEmptyPartsAppend(a[1..], b);
    }
  }

  /** `parts.filter(truthy).join(sep)`: empty exactly when every part is. */
  function JoinNonEmpty(parts: seq<string>, sep: string): (r: string)
    ensures r == "" <==> forall i :: 0 <= i < |parts| ==> parts[i] == ""
    ensures r == Join(NonEmptyParts(parts), sep)
  {
    var ps := NonEmptyParts(parts);
    JoinNonEmptyEmpty(ps, sep);
    if |ps| == 0 then
      assert forall i :: 0 <= i < |parts| ==> parts[i] == "" by {
        forall i | 0 <= i < |parts| ensures parts[i] == "" {
          assert parts[i] in parts;
        }
      }
      Join(ps, sep)
    else
      assert ps[0] in parts;
      Join(ps, sep)
  }

  lemma {:induction false} JoinNonEmptyEmpty(ps: seq<string>, sep: string)
    requires forall i :: 0 <= i < |ps| ==> ps[i] != ""
    ensures Join(ps, sep) == "" <==> |ps| == 0
    decreases |ps|
  {
    if |ps| > 1 {
      JoinNonEmptyEmpty(ps[1..], sep);
    }
  }
}

=== FILE: users.dfy ===
/**
 * redis/users.js: user accounts, a case-insensitive username index, generated
 * passwords and credential checking. The key-derivation function (PBKDF2) and
 * the random bytes are parameters: `hash(password, salt)` and three random
 * strings supplied by the caller, and so is `lower`, the string's
 * `toLowerCase()` with JavaScript's full Unicode case mapping.
 */
module Users {
  import opened Results
  import Text
  import Kv
  import opened Records

  const USER := "user:#"
  const USERS := "users"
  const USERNAME_TO_ID := "username.to.id:#"
  const NEXT_ID := "users:nextid"

  /** byId: the hash under `user:#<id>`, or null when there is none. */
  function ById(s: Kv.Store, id: string): Option<UserRecord> {
    match Kv.HGetAll(s, USER + id)
    case Some(UserHash(u)) => Some(u)
    case _ => None
  }

  /** byUsername: looks the lower-cased username up in the username index;
      null when no id is indexed under it. */
  function ByUsername(s: Kv.Store, username: string, lower: string -> string): (r: Option<UserRecord>)
    ensures Kv.GetString(s, USERNAME_TO_ID + lower(username)).None? ==> r.None?
    ensures r.Some? ==> r == ById(s, Kv.GetString(s, USERNAME_TO_ID + lower(username)).value)
    ensures Kv.GetString(s, USERNAME_TO_ID + lower(username)).Some? && Kv.GetString(s, USERNAME_TO_ID + lower(username)).value != "" ==>
      r == ById(s, Kv.GetString(s, USERNAME_TO_ID + lower(username)).value)
  {
    match Kv.GetString(s, USERNAME_TO_ID + lower(username))
    case None => None
    case Some(id) => if id == "" then None else ById(s, id)
  }

  /** The fields of a new user, as the user form supplies them. */
  datatype NewUser = NewUser(
    username: string, firstName: string, lastName: string, email: string, isAdmin: bool)

  /** What generatePassword hands on: the plain password, the salt and the
      salted hash of the password. */
  datatype Generated = Generated(password: string, salt: string, hashedPassword: string)

  /** generatePassword: the password is one random string hashed with another,
      and it is then hashed again with a random salt. */
  function GeneratePassword(random1: string, random2: string, salt: string,
                            hash: (string, string) -> string): (g: Generated)
    ensures g.password == hash(random1, random2)
    ensures g.salt == salt && g.hashedPassword == hash(g.password, salt)
  {
    var password := hash(random1, random2);
    Generated(password, salt, hash(password, salt))
  }

  /** The MULTI batch `store` queues for a new user. */
  function StoreOps(u: UserRecord, lower: string -> string): seq<Kv.Op> {
    var idText := Text.NatText(u.id);
    [ Kv.Set(USERNAME_TO_ID + lower(u.username), idText),
      Kv.RPush(USERS, idText),
      Kv.HMSet(USER + idText, UserHash(u)) ]
  }

  /** store: generates a password, allocates the next id and, in one batch,
      indexes the lower-cased username, appends the id to `users` and writes
      the record. Returns the new store, the stored user and, separately, the
      plain password. */
  function Store(s: Kv.Store, nu: NewUser, random1: string, random2: string, salt: string,
                 hash: (string, string) -> string, lower: string -> string): (r: (Kv.Store, UserRecord, string))
    ensures r.1.id == Kv.Counter(s, NEXT_ID) + 1 && Kv.Counter(r.0, NEXT_ID) == r.1.id
    ensures r.1.username == nu.username && r.1.salt == salt
    ensures r.1.firstName == nu.firstName && r.1.lastName == nu.lastName
    ensures r.1.email == nu.email && r.1.isAdmin == nu.isAdmin
    ensures r.1.password == hash(r.2, salt)
    ensures r.2 == hash(random1, random2)
    ensures Kv.GetString(r.0, USERNAME_TO_ID + lower(nu.username)) == Some(Text.NatText(r.1.id))
    ensures Kv.ListAt(r.0, USERS) == Kv.ListAt(s, USERS) + [Text.NatText(r.1.id)]
    ensures Kv.HGetAll(r.0, USER + Text.NatText(r.1.id)) == Some(UserHash(r.1))
    ensures r.0.zsets == s.zsets && r.0.sets == s.sets
    ensures forall k :: k != USERS ==> Kv.ListAt(r.0, k) == Kv.ListAt(s, k)
    ensures r.0.strings == s.strings[USERNAME_TO_ID + lower(nu.username) := Text.NatText(r.1.id)]
    ensures r.0.hashes == s.hashes[USER + Text.NatText(r.1.id) := UserHash(r.1)]
    ensures forall k :: k != NEXT_ID ==> Kv.Counter(r.0, k) == Kv.Counter(s, k)
  {
    var g := GeneratePassword(random1, random2, salt, hash);
    var (s1, id) := Kv.Incr(s, NEXT_ID);
    var u := UserRecord(id, nu.username, nu.firstName, nu.lastName, nu.email, nu.isAdmin,
                        g.salt, g.hashedPassword);
    var ops := StoreOps(u, lower);
    var s2 := Kv.ApplyOp(s1, ops[0]);
    var s3 := Kv.ApplyOp(s2, ops[1]);
    var s4 := Kv.ApplyOp(s3, ops[2]);
    assert Kv.Exec(s1, ops) == s4 by {
      assert ops[1..][1..][1..] == [];
      assert Kv.Exec(s3, ops[1..][1..]) == s4;
      assert Kv.Exec(s2, ops[1..]) == s4;
    }
    (Kv.Exec(s1, ops), u, g.password)
  }

  /** validateCredentials: false (here `None`) for an unknown username;
      otherwise the user exactly when hashing the given password with the
      user's salt reproduces the stored hash. */
  function ValidateCredentials(s: Kv.Store, username: string, password: string,
                               hash: (string, string) -> string, lower: string -> string): (r: Option<UserRecord>)
    ensures ByUsername(s, username, lower).None? ==> r.None?
    ensures r.Some? <==>
      (ByUsername(s, username, lower).Some? &&
       hash(password, ByUsername(s, username, lower).value.salt) == ByUsername(s, username, lower).value.password)
    ensures r.Some? ==> r == ByUsername(s, username, lower)
  {
    match ByUsername(s, username, lower)
    case None => None
    case Some(user) =>
      var hashedPassword := hash(password, user.salt);
      if hashedPassword == user.password then Some(user) else None
  }

  /** The password `store` hands back validates against the stored user, under
      any spelling of the username that lower-cases alike. */
  lemma StoreThenValidate(s: Kv.Store, nu: NewUser, random1: string, random2: string, salt: string,
                          hash: (string, string) -> string, lower: string -> string, login: string)
    requires lower(login) == lower(nu.username)
    ensures var r := Store(s, nu, random1, random2, salt, hash, lower);
      ValidateCredentials(r.0, login, r.2, hash, lower) == Some(r.1)
  {
  }

  /** Only that password validates: with a hash that tells passwords apart,
      any other password is refused for the new user. */
  lemma OtherPasswordRefused(s: Kv.Store, nu: NewUser, random1: string, random2: string, salt: string,
                             hash: (string, string) -> string, lower: string -> string,
                             login: string, guess: string)
    requires forall p, q, t :: hash(p, t) == hash(q, t) ==> p == q
    requires lower(login) == lower(nu.username)
    requires guess != hash(random1, random2)
    ensures ValidateCredentials(Store(s, nu, random1, random2, salt, hash, lower).0, login, guess, hash, lower).None?
  {
    var r := Store(s, nu, random1, random2, salt, hash, lower);
    assert ByUsername(r.0, login, lower) == Some(r.1);
    assert hash(guess, salt) != hash(r.2, salt);
  }
}
